=== FILE: README.md ===
# Family care app: message drafts, message rendering, smart-entry forms, image storage helpers

A Dafny model of the pure logic inside a React Native family-care app. The
model covers four parts of it:

- **The message composer's draft** (`Composer`, `composer.dfy`). The draft
  holds the text being typed, the cursor, and the mention and entity-link
  spans created from the pickers. It also holds the image attachments. Each
  handler is a pure function from draft to draft: insert a mention or link
  token at the cursor, attach or remove an image, and send.
- **The message body renderer** (`Renderer`, `renderer.dfy`). This is
  `renderContent` of the message item. It merges a message's mentions and
  links, stable-sorts them by start offset, and cuts the text into plain,
  mention and link segments. The slices use JavaScript's `slice` rules.
- **The four smart-entry forms.** These are to-do (`TodoForm`), note
  (`NoteForm`), question (`QuestionForm`) and medication (`MedicationForm`).
  They share the duplicate-free tag editor (`TagList`) and a few constants
  (`SmartEntry`). Each form is a screen state, a set of control actions
  with a `Step` reducer, and a `Save` that runs the checks in order. `Save`
  then builds the requests the form would send to the database.
- **The storage helpers** (`Storage`). These are the generated file name,
  the decision logic of the pre-upload image validation, the upload path
  and the thumbnail rule.

The JavaScript string primitives the code relies on live in `Text`:
`trim`, `slice` with negative indices and clamping, `startsWith`, ASCII
`toLowerCase`, and the `\s+` replacement. `Seqs` holds `filter` and the
duplicate-freedom invariant. `Wrappers` holds `Option` and `Result`.

Database calls, the image picker, the clock and the random source are
parameters. Examples: whether the message store succeeded, the picked
asset, `Date.now()`, the id `createMedication` returns, and the HEAD
response of an image.

## Model

| member | source | states |
|---|---|---|
| Composer.NewDraft | components/MessageComposer.tsx:86-98 | a fresh composer holds the given text, cursor 0, and no spans or attachments |
| Composer.Splice | components/MessageComposer.tsx:244 | for a cursor inside the text, the result is the old prefix, then the token, then the old suffix; its length grows by the token's length |
| Composer.MentionToken | components/MessageComposer.tsx:243 | the mention token is `@` followed by the user's name, one character longer than the name |
| Composer.LinkLabel | components/MessageComposer.tsx:260 | the label is the title when it is a non-empty string, else the name; a missing name prints as `undefined` |
| Composer.LinkToken | components/MessageComposer.tsx:260 | the link token is the label wrapped in square brackets |
| Composer.AddMention | components/MessageComposer.tsx:242-257 | appends exactly one mention spanning `[cursor, cursor + k)`, where `k` is the token length; existing mentions are unchanged and links and attachments untouched; the cursor moves past the token; prefix and suffix are preserved and the token sits in the span |
| Composer.AddLink | components/MessageComposer.tsx:259-275 | appends one link spanning the inserted token, tagged with the open picker tab; its `linkText` equals the new text inside its span; the old prefix and suffix are preserved and other spans are untouched |
| Composer.SetContent | components/MessageComposer.tsx:498 | typing replaces the text and moves no span and no cursor |
| Composer.MoveCursor | components/MessageComposer.tsx:499 | a selection change moves only the cursor |
| Composer.SpanBeforeCursorKeepsText | components/MessageComposer.tsx:242-257 | a span ending at or before the cursor still covers the same text after an insertion |
| Composer.SpanAfterCursorShifts | components/MessageComposer.tsx:242-257 | a span starting at or after the cursor keeps its text only if shifted right by the token length |
| Composer.UnshiftedSpanDrifts | components/MessageComposer.tsx:242-257 | since nothing is shifted, mentioning Bo in front of a mention of Ann leaves Ann's span covering `@Bo@` |
| Composer.OrDefault | components/MessageComposer.tsx:183-184 | `x \|\| fallback` on an optional string: a missing or empty value falls back |
| Composer.NewAttachment | components/MessageComposer.tsx:180-186 | the new attachment keeps the given id and the asset's uri; its type and name are the asset's when present and non-empty, else `image/jpeg` and `image.jpg`; its size is the asset's, else 0 |
| Composer.AttachImage | components/MessageComposer.tsx:161-193 | a cancelled pick changes nothing; otherwise exactly one attachment is appended and the rest of the draft is untouched |
| Composer.RemoveAttachment | components/MessageComposer.tsx:195-197 | keeps exactly the attachments whose id differs; with no such id the draft is unchanged; text and spans are untouched |
| Composer.RemoveUndoesAttach | components/MessageComposer.tsx:187-196 | removing an image right after attaching it under a fresh id restores the draft |
| Composer.ToRecord | components/MessageComposer.tsx:130-137 | the stored record copies name, type, size and uri; a thumbnail is present exactly for `image/` types and is then the uri |
| Composer.ToRecords | components/MessageComposer.tsx:130-137 | the mapping keeps length and order, record by record |
| Composer.Send | components/MessageComposer.tsx:109-159 | no request is made exactly when the draft is empty (blank text, no image) or nobody is signed in, reported in that order; the request carries the trimmed text and the unchanged spans; a stored message clears text, spans and attachments but not the cursor; a failure leaves the draft as it was |
| Composer.SendButtonMatchesGuard | components/MessageComposer.tsx:569 | when idle, the send button is enabled exactly when the send gets past the emptiness check |
| Composer.NoDoubleSend | components/MessageComposer.tsx:146-150 | after a successful send, sending again is refused as empty |
| Renderer.Merge | components/MessageItem.tsx:155-157 | mentions come first, then links, each in stored order |
| Renderer.Insert | components/MessageItem.tsx:158 | inserting into a sorted list gives a sorted permutation of the list plus the new marker |
| Renderer.SortByStart | components/MessageItem.tsx:158 | the sort returns a sorted permutation of its input |
| Renderer.KeyRunMembers | components/MessageItem.tsx:158 | the run of a start offset holds exactly the markers starting there |
| Renderer.InsertKeyRun | components/MessageItem.tsx:158 | insertion puts the marker last among equal starts and leaves other runs alone |
| Renderer.SortByStartIsStable | components/MessageItem.tsx:158 | the sort is stable: markers with equal starts keep their relative order |
| Renderer.StableSortUnique | components/MessageItem.tsx:158 | every stable sort of the markers is this one, so the result does not depend on the engine's algorithm |
| Renderer.SameRunsSameList | components/MessageItem.tsx:158 | two sorted lists with the same per-start runs are equal |
| Renderer.CursorAfter | components/MessageItem.tsx:178 | after the walk the cursor is the last marker's end, not the largest end seen |
| Renderer.BodyShape | components/MessageItem.tsx:162-179 | the walk emits exactly the given markers, in order, each with its own slice; with in-range markers no plain segment is empty |
| Renderer.TrailingShape | components/MessageItem.tsx:182-187 | the trailing segment is plain, and not empty when the cursor is not negative |
| Renderer.WalkShape | components/MessageItem.tsx:160-187 | the walk plus the trailing text carries exactly the markers, each with its slice; with in-range markers no plain segment is empty |
| Renderer.Render | components/MessageItem.tsx:140-187 | without spans the whole text is one plain segment; otherwise the marked segments are the stably sorted merge, each carrying its slice; with in-range spans no plain segment is empty |
| Renderer.SortKeepsRange | components/MessageItem.tsx:158 | sorting keeps every span within the text |
| Renderer.BodyRoundTrip | components/MessageItem.tsx:162-179 | for chained spans the walk emits exactly the text from the cursor up to the last marker's end |
| Renderer.WalkRoundTrip | components/MessageItem.tsx:160-187 | for chained spans the segment texts join to the whole text |
| Renderer.SortKeepsDisjoint | components/MessageItem.tsx:158 | sorting keeps spans pairwise disjoint |
| Renderer.SortedDisjointChained | components/MessageItem.tsx:158-178 | sorted, non-empty, disjoint, in-range spans form a chain |
| Renderer.RenderRoundTrip | components/MessageItem.tsx:140-187 | when every span is non-empty and within the text, and no two overlap, the rendered segment texts join back to the message text |
| Renderer.RenderIsWalk | components/MessageItem.tsx:155-187 | with at least one span, rendering walks the stably sorted merge |
| Renderer.WalkTwoText | components/MessageItem.tsx:162-187 | two markers, the second starting inside the first: the text is shown up to the first's end and again from the second's start |
| Renderer.MentionThenLink | components/MessageItem.tsx:140-187 | a link starting inside a mention repeats the shared text, whether it ends inside, after, or is empty |
| Renderer.OverlapRepeatsText | components/MessageItem.tsx:178 | overlapping spans lengthen the shown text by the overlap, so the text is not reproduced |
| Renderer.EmptySpanBreaksRoundTrip | components/MessageItem.tsx:164-178 | an empty link at a mention's start is disjoint and in range, yet the mention's text is shown twice |
| Renderer.BodyStep | components/MessageItem.tsx:162-179 | one pass of the loop is one gap, one marker segment, then the rest from that marker's end |
| Renderer.WalkMarkers | components/MessageItem.tsx:160-187 | the imperative loop and trailing push compute the segments of the walk |
| Renderer.RenderContent | components/MessageItem.tsx:140-187 | the imperative renderer returns the segments `Render` describes |
| Text.TrimStart | app/smart-entry/todo.tsx:55 | drops exactly the leading whitespace: the result is a suffix, everything dropped is whitespace, and it does not start with whitespace |
| Text.TrimEnd | app/smart-entry/todo.tsx:55 | drops exactly the trailing whitespace |
| Text.Trim | app/smart-entry/todo.tsx:55 | the result is empty exactly when the input is all whitespace, and otherwise starts and ends with non-whitespace |
| Text.TrimCutsOnlyWhitespace | app/smart-entry/todo.tsx:55 | the trimmed text is a contiguous piece of the input with only whitespace before and after it, so with the ends above it is the input minus its leading and trailing whitespace |
| Text.TrimPieces | app/smart-entry/todo.tsx:55 | cutting a whitespace prefix and then a whitespace suffix leaves a contiguous piece of the input |
| Text.TrimIdempotent | app/smart-entry/todo.tsx:55 | trimming twice is trimming once |
| Text.Slice | components/MessageItem.tsx:164-187 | `slice` gives the plain substring for in-range indices, nothing when the end is at or before the start, and counts a negative start back from the end |
| Text.ToLower | app/smart-entry/question.tsx:115 | lower-cases every ASCII capital, keeps length, and leaves no capital |
| Text.CollapseWhitespace | app/smart-entry/question.tsx:115 | the run replacement leaves no whitespace and only adds hyphens |
| Text.CollapseSkipsRun | app/smart-entry/question.tsx:115 | the rest of a whitespace run adds nothing once the run has been replaced |
| Text.CollapseRun | app/smart-entry/question.tsx:115 | a maximal whitespace run after a word becomes exactly one hyphen; the word is kept and the rest is replaced on its own |
| Text.CollapseKeepsVisible | app/smart-entry/question.tsx:115 | every character other than whitespace and hyphens survives the replacement, in its original order |
| Text.Slug | app/smart-entry/question.tsx:115 | the specialty slug has no whitespace and no capitals |
| Text.ToLowerAppend | app/smart-entry/question.tsx:115 | lower-casing distributes over concatenation |
| Text.SlugOfWord | app/smart-entry/question.tsx:115 | a specialty without whitespace is only lower-cased |
| Text.SlugRun | app/smart-entry/question.tsx:115 | each whitespace run of the specialty becomes one hyphen between the lower-cased words around it |
| Text.SlugIdempotent | app/smart-entry/question.tsx:115 | slugging a slug changes nothing |
| Seqs.Filter | app/smart-entry/todo.tsx:67 | keeps exactly the elements that pass, in order |
| Seqs.FilterAppend | app/smart-entry/todo.tsx:67 | filtering distributes over concatenation, so relative order is kept |
| Seqs.FilterNoDuplicates | app/smart-entry/todo.tsx:67 | filtering never introduces a duplicate |
| TagList.AddTag | app/smart-entry/todo.tsx:54-62 | the trimmed input is appended exactly when it is non-blank and new, and the input is then cleared; otherwise nothing changes; tags stay duplicate-free |
| TagList.RemoveTag | app/smart-entry/todo.tsx:64-69 | the remaining tags are exactly the others; an absent tag changes nothing; tags stay duplicate-free |
| TagList.AddExistingTag | app/smart-entry/todo.tsx:71-78 | the suggestion is present afterwards, appended only when absent; tags stay duplicate-free |
| TagList.Suggestions | app/smart-entry/todo.tsx:259 | the suggestion row is exactly the preset tags not yet chosen |
| TagList.RemoveUndoesAddExisting | app/smart-entry/todo.tsx:64-78 | removing a suggestion just added restores the tag list |
| TagList.RemoveTagSplits | app/smart-entry/todo.tsx:64-69 | removal keeps the order of the other tags |
| TagList.PickSuggestion | app/smart-entry/todo.tsx:259-263 | a picked suggestion moves from the suggestion row into the tags |
| TagList.Apply | app/smart-entry/todo.tsx:54-78 | every tag action keeps the list duplicate-free; only an add brings in a new tag, namely the typed or suggested one |
| TagList.ApplyAll | app/smart-entry/todo.tsx:54-78 | any session of tag actions keeps the list duplicate-free |
| SmartEntry.Await | app/smart-entry/medication.tsx:123-200 | awaiting calls in one `try` sends a prefix of the plan; every sent call but the last was accepted; a failed save's last sent call was rejected; the save succeeds exactly when every call is accepted, and then all were sent |
| SmartEntry.AwaitStopsAtFirstRejection | app/smart-entry/medication.tsx:123-200 | the first rejected call is the last one sent |
| TodoForm.Initial | app/smart-entry/todo.tsx:24-32 | a blank to-do is not recurring and has no tags |
| TodoForm.Step | app/smart-entry/todo.tsx:160-307 | each control changes only its own field; the recurrence switch flips its flag; tags stay duplicate-free |
| TodoForm.Run | app/smart-entry/todo.tsx:54-78 | any session keeps the tags duplicate-free |
| TodoForm.Save | app/smart-entry/todo.tsx:80-117 | the planned requests: saving fails exactly on a blank title; a reminder is made exactly when the to-do is recurring with an interval chosen, with that interval as frequency, kind `task`, reset on completion, and the entry's title, description, due date and assignee; the entry copies the form's title, description, priority, tags, due date, assignee and recurrence fields; the reminder's child id is the placeholder |
| TodoForm.Submit | app/smart-entry/todo.tsx:87-123 | the entry is always requested first; the reminder is requested exactly when the entry was stored and the to-do is recurring with an interval; the save succeeds exactly when every call it sends succeeds |
| TodoForm.FailedEntrySendsNoReminder | app/smart-entry/todo.tsx:104-108 | when `createEntry` is rejected, only the entry was requested and the save fails, even for a recurring to-do |
| TodoForm.ToggleRecurringTwice | app/smart-entry/todo.tsx:107-117 | switching recurrence off suppresses the reminder but keeps the interval, so switching back restores the save |
| TodoForm.TagsOnlyChangeTags | app/smart-entry/todo.tsx:54-102 | tag actions change nothing a save reads except the tags |
| NoteForm.Initial | app/smart-entry/note.tsx:22-29 | a blank note is neither pinned nor private and has no tags |
| NoteForm.Step | app/smart-entry/note.tsx:139-294 | each switch flips only its own flag; other controls change only their field; tags stay duplicate-free |
| NoteForm.Run | app/smart-entry/note.tsx:48-72 | any session keeps the tags duplicate-free |
| NoteForm.Save | app/smart-entry/note.tsx:74-94 | saving fails exactly on a blank title; `pinnedAt` and `privateAt` are present exactly when their switch is on and are then the save time; the note keeps the form's title, description, priority and tags, and is a general one made via the smart entry |
| NoteForm.TogglesInvolutive | app/smart-entry/note.tsx:272-294 | pressing a switch twice restores the screen, and the two switches commute |
| NoteForm.PinSwitchOnlyPins | app/smart-entry/note.tsx:89 | the pin switch changes exactly whether the saved note is pinned |
| QuestionForm.Initial | app/smart-entry/question.tsx:24-30 | a blank question has no specialist, no assignee and is not urgent |
| QuestionForm.Step | app/smart-entry/question.tsx:216-400 | each text, priority and assignee control changes only its own field; "I'll ask" clears only the assignee; the urgency switch flips its flag; picking and clearing set the specialist; tags stay duplicate-free |
| QuestionForm.Run | app/smart-entry/question.tsx:65-89 | any session keeps the tags duplicate-free |
| QuestionForm.Check | app/smart-entry/question.tsx:91-105 | reports a blank title, else a blank question, else a missing or empty specialist id; passes exactly when none applies |
| QuestionForm.Find | app/smart-entry/question.tsx:109 | finds the first specialist with the id, or reports that none has it |
| QuestionForm.SpecialtyTag | app/smart-entry/question.tsx:115 | the extra tag is the found specialist's specialty slug, and empty when no specialist is found |
| QuestionForm.Save | app/smart-entry/question.tsx:91-128 | fails with the first failing check; otherwise the entry's tags are the form's plus the specialty slug, and it is a pending specialist question carrying the chosen id, the urgency, and the form's title, description and priority; the specialist's name and specialty are those of the specialist found, and absent when none is |
| QuestionForm.FindListed | app/smart-entry/question.tsx:109 | with distinct ids, a listed specialist is found by its id |
| QuestionForm.PickedSpecialistIsTagged | app/smart-entry/question.tsx:109-128 | picking a listed specialist on a filled-in form lets the save through, tagged with that specialist's specialty slug and carrying their name |
| QuestionForm.ClearedSpecialistBlocksSave | app/smart-entry/question.tsx:102-105 | clearing the specialist makes a filled-in form fail on the specialist check |
| QuestionForm.TitleCheckedFirst | app/smart-entry/question.tsx:92-95 | a blank title is reported first, whatever else is missing |
| MedicationForm.Initial | app/smart-entry/medication.tsx:26-35 | a blank form is in log mode with nothing picked, given at the start time |
| MedicationForm.Select | app/smart-entry/medication.tsx:95-104 | a pick sets id, name, dosage, timing and frequency from the medication and keeps every other field |
| MedicationForm.ClearSelection | app/smart-entry/medication.tsx:294 | clearing forgets only the picked id |
| MedicationForm.Step | app/smart-entry/medication.tsx:241-463 | the name, dosage and giver controls change only their own field; switching mode keeps every other field; pick and unpick are `Select` and `ClearSelection`; tags stay duplicate-free |
| MedicationForm.Run | app/smart-entry/medication.tsx:69-93 | any session keeps the tags duplicate-free |
| MedicationForm.Check | app/smart-entry/medication.tsx:106-168 | reports a blank name, else a blank dosage, else a blank giver, else (in log mode only) a missing or empty pick |
| MedicationForm.MarkerTags | app/smart-entry/medication.tsx:148-182 | `medication` then the mode's own marker |
| MedicationForm.LogDescription | app/smart-entry/medication.tsx:181 | the notes are appended only when there are any |
| MedicationForm.Save | app/smart-entry/medication.tsx:106-197 | the planned requests: fails with the first failing check; otherwise a medication is created exactly in add mode; the entry's tags are the form's plus the marker tags, and its type is the last tag; the dose and the entry name the same medication (the created one, or the picked one); the new medication is the form's name, dosage, timing, frequency and notes; the dose and the entry carry the form's dosage, giver and time, the dose the form's notes; the entry's description is the mode's text (`LogDescription` in log mode) and it is made via the smart entry for the placeholder ids |
| MedicationForm.Submit | app/smart-entry/medication.tsx:123-200 | fails with the first failing check; in add mode `createMedication` is requested first; the dose is requested exactly when add mode's new medication was created; the entry exactly when, in addition, the dose was logged; the save succeeds exactly when every call succeeds |
| MedicationForm.SentCalls | app/smart-entry/medication.tsx:123-200 | for both plan shapes, the dose and the entry are sent exactly when every earlier call was accepted |
| MedicationForm.FailedCreateSendsNothingElse | app/smart-entry/medication.tsx:126-145 | a rejected `createMedication` means no dose and no entry are requested and the save fails |
| MedicationForm.FailedDoseSendsNoEntry | app/smart-entry/medication.tsx:170-179 | in log mode, a rejected `logMedication` means no entry is requested and the save fails |
| MedicationForm.PickPassesChecks | app/smart-entry/medication.tsx:95-120 | a pick with a name, dosage and id satisfies every check once a giver is named |
| MedicationForm.PickThenLog | app/smart-entry/medication.tsx:163-194 | picking in log mode is enough to log a dose of the picked medication |
| MedicationForm.UnpickBlocksLog | app/smart-entry/medication.tsx:165-168 | clearing the pick of a complete log-mode form makes the save fail on the selection check |
| MedicationForm.AddModeIgnoresPick | app/smart-entry/medication.tsx:124-162 | add mode needs no pick |
| MedicationForm.FieldChecksFirst | app/smart-entry/medication.tsx:106-168 | the field checks come before the selection check |
| Storage.Split | lib/storage.ts:105 | `split` gives at least one piece and no piece holds the separator |
| Storage.JoinSplit | lib/storage.ts:105 | joining the pieces of a split restores the string |
| Storage.SplitJoin | lib/storage.ts:105 | splitting a join of separator-free pieces restores the pieces |
| Storage.Extension | lib/storage.ts:105 | the extension is non-empty and dot-free; a dot-free name is its own extension; an empty last piece falls back to `jpg` |
| Storage.ExtensionAfterLastDot | lib/storage.ts:105 | the extension is what follows the last dot, or `jpg` when nothing does |
| Storage.NatToString | lib/storage.ts:106 | the decimal text of a number reads back as that number and has no leading zero |
| Storage.GenerateFileName | lib/storage.ts:102-107 | the generated name is the timestamp's digits, an underscore, the random string, a dot and the original's extension, each piece at its place |
| Storage.GeneratedNameKeepsExtension | lib/storage.ts:102-107 | the generated name has the same extension as the original |
| Storage.GeneratedNameStartsWithTimestamp | lib/storage.ts:102-107 | the generated name starts with the timestamp and reads back as it |
| Storage.ParseInt | lib/storage.ts:132 | `parseInt` is `NaN` exactly when no digits follow the whitespace and sign |
| Storage.ParseIntOfDecimal | lib/storage.ts:132 | decimal digits followed by a non-digit parse back to their number |
| Storage.ParseTrimmed | lib/storage.ts:132 | after the leading whitespace, the result is `NaN` exactly when no digits follow the optional sign |
| Storage.ParseIntSigned | lib/storage.ts:132 | leading whitespace is skipped, and a `-` or `+` sign before the digits gives their negated or plain value |
| Storage.ImageSize | lib/storage.ts:132 | a missing or empty length header counts as size 0 |
| Storage.ValidateImage | lib/storage.ts:122-143 | valid exactly when the response arrived, the type starts with `image/` and the size is not over 10 MiB; otherwise the failed request, the type and the size are reported in that order |
| Storage.SizeLimitInclusive | lib/storage.ts:132-137 | for an image with a decimal length, valid exactly when the size is at most 10 MiB, so exactly 10 MiB passes |
| Storage.TypeCheckedFirst | lib/storage.ts:128-130 | a non-image is reported as such whatever its size |
| Storage.NotANumberPasses | lib/storage.ts:132-137 | a non-numeric length (`NaN`) never fails the size check |
| Storage.StoragePath | lib/storage.ts:28 | the upload path starts with `messages/` and ends with a slash and the file name, and is 11 characters longer than its three parts |
| Storage.StoragePathParts | lib/storage.ts:28 | the path splits into `messages`, the child id, the message id and the file name's pieces when the ids hold no slash |
| Storage.UploadResultOf | lib/storage.ts:40-50 | the result copies the URL and blob data; a thumbnail is present exactly for `image/` types and is then the URL |

## Left out

- Rendering (JSX, styles, modals, pickers, navigation, alerts) is presentation and has no model. Loading flags are left out too, except as the `loading` input of the send button's enabled test.
- Network, database and SDK calls are left out. The message store, `createEntry`, `createReminder`, `createMedication`, `logMedication`, `fetch` and the storage bucket appear only as their outcome (accepted or rejected) or their returned value. The to-do and medication saves send their calls in order and stop at the first rejected one (`TodoForm.Submit`, `MedicationForm.Submit`). The note and question saves make a single call, so its outcome changes nothing the model records. The error messages of a rejected call are not modelled.
- `Date.now()`, `new Date()` and `Math.random()` are parameters. The note form's two `new Date()` calls are modelled as one instant.
- `uploadImages`, `deleteImage`, `batchUploadWithProgress`, `createThumbnail`, `getStorageUsage` and `cleanupOrphanedFiles` are left out. They are I/O sequencing or placeholders with no decision logic.
- `getFileSize` is left out. Its only logic is the length-header rule, which `Storage.ImageSize` models.
- Text.ToLower: lower-cases ASCII letters only, while JavaScript's `toLowerCase` is Unicode-aware. Strings are sequences of characters, not UTF-16 code units.
- Storage.ParseInt: reads the digits as an unbounded integer. JavaScript's `parseInt` loses precision beyond 2^53.
- Renderer.RenderRoundTrip: asks for non-empty spans (`start < end`), which is stronger than "in range and pairwise disjoint". An empty span at the start of another span is disjoint from it. Yet the renderer shows that text twice, as `Renderer.EmptySpanBreaksRoundTrip` proves.
- Renderer.Render: states "no empty plain segment" only when there is at least one span. Without spans, the whole text becomes one plain segment, even when the text is empty.
- The to-do form's `assignedToId` and `dueDate` have no control on the screen. They keep their initial absent value and are only passed through.
- The specialist, medication and team-member lists are inputs. Their hard-coded contents are not modelled.

=== FILE: composer.dfy ===
/** The message composer's draft: the text being typed, the cursor, the
    mention and entity-link spans inserted from the pickers, and the picked
    image attachments. Each handler of the composer screen is a pure
    function from draft to draft; the collaborator that stores the message
    and the image picker appear only as parameters (whether the store call
    succeeded, what the picker returned). */
module Composer {
  import opened Wrappers
  import opened Text
  import opened Seqs

  datatype User = User(id: string, name: string, email: string)

  /** A row of the link picker; `title` and `name` are both optional. */
  datatype LinkableEntity = LinkableEntity(id: string, title: Option<string>, name: Option<string>)

  /** The five link-picker tabs. */
  datatype EntityType = Entry | Medication | Reminder | Contact | MedicalData

  /** A mention span: the half-open character range `[startIndex, endIndex)` of the draft. */
  datatype Mention = Mention(userId: string, startIndex: int, endIndex: int, user: User)

  /** An entity-link span, with the token text it was created from. */
  datatype EntityLink = EntityLink(
    entityType: EntityType, entityId: string, linkText: string, startIndex: int, endIndex: int)

  datatype Attachment = Attachment(id: string, uri: string, mimeType: string, name: string, size: int)

  datatype Draft = Draft(
    content: string,
    cursor: int,
    mentions: seq<Mention>,
    links: seq<EntityLink>,
    attachments: seq<Attachment>)

  /** A fresh composer, possibly opened with text to edit. */
  function NewDraft(initialContent: string): (d: Draft)
    ensures d.cursor == 0 && d.mentions == [] && d.links == [] && d.attachments == []
    ensures d.content == initialContent
  {
    Draft(initialContent, 0, [], [], [])
  }

  // ---------------------------------------------------------------------------
  // Splicing a token into the text at the cursor

  /** `content.slice(0, cursor) + token + content.slice(cursor)`. */
  function Splice(content: string, cursor: int, token: string): (r: string)
    ensures |r| <= |content| + |token|
    ensures 0 <= cursor <= |content| ==>
      && |r| == |content| + |token|
      && r[..cursor] == content[..cursor]
      && r[cursor..cursor + |token|] == token
      && r[cursor + |token|..] == content[cursor..]
  {
    Slice(content, 0, cursor) + token + Slice(content, cursor, |content|)
  }

  /** The text a mention inserts: `@` followed by the user's display name. */
  function MentionToken(user: User): (t: string)
    ensures |t| == |user.name| + 1 && t[0] == '@' && t[1..] == user.name
  {
    "@" + user.name
  }

  /** `entity.title || entity.name`: the title when it is a non-empty
      string, else the name, where a missing name prints as `undefined`. */
  function LinkLabel(entity: LinkableEntity): (text: string)
    ensures entity.title.Some? && entity.title.value != "" ==> text == entity.title.value
    ensures (entity.title.None? || entity.title.value == "") && entity.name.Some? ==> text == entity.name.value
    ensures (entity.title.None? || entity.title.value == "") && entity.name.None? ==> text == "undefined"
  {
    if entity.title.Some? && entity.title.value != "" then entity.title.value
    else if entity.name.Some? then entity.name.value
    else "undefined"
  }

  /** The text a link inserts: the label in square brackets. */
  function LinkToken(entity: LinkableEntity): (t: string)
    ensures |t| == |LinkLabel(entity)| + 2
    ensures t[0] == '[' && t[|t| - 1] == ']' && t[1..|t| - 1] == LinkLabel(entity)
  {
    "[" + LinkLabel(entity) + "]"
  }

  /** `handleAddMention`: splice `@name` in at the cursor, record its span,
      append the mention and move the cursor past the token. Spans already
      in the draft are kept exactly as they were. */
  function AddMention(d: Draft, user: User): (r: Draft)
    ensures var k := |MentionToken(user)|;
      && |r.mentions| == |d.mentions| + 1
      && r.mentions[..|d.mentions|] == d.mentions
      && r.mentions[|d.mentions|] == Mention(user.id, d.cursor, d.cursor + k, user)
      && r.cursor == d.cursor + k
    ensures r.links == d.links && r.attachments == d.attachments
    ensures 0 <= d.cursor <= |d.content| ==>
      && |r.content| == |d.content| + |MentionToken(user)|
      && r.content[..d.cursor] == d.content[..d.cursor]
      && r.content[d.cursor..r.cursor] == MentionToken(user)
      && r.content[r.cursor..] == d.content[d.cursor..]
  {
    var token := MentionToken(user);
    var mention := Mention(user.id, d.cursor, d.cursor + |token|, user);
    var mentions := d.mentions + [mention];
    assert mentions[..|d.mentions|] == d.mentions && mentions[|d.mentions|] == mention;
    d.(content := Splice(d.content, d.cursor, token), mentions := mentions, cursor := d.cursor + |token|)
  }

  /** `handleAddLink`: the same splice with `[label]`, tagged with the picker
      tab that was open; the link records the inserted token as its text. */
  function AddLink(d: Draft, entity: LinkableEntity, tab: EntityType): (r: Draft)
    ensures var k := |LinkToken(entity)|;
      && |r.links| == |d.links| + 1
      && r.links[..|d.links|] == d.links
      && r.links[|d.links|] == EntityLink(tab, entity.id, LinkToken(entity), d.cursor, d.cursor + k)
      && r.cursor == d.cursor + k
    ensures r.mentions == d.mentions && r.attachments == d.attachments
    ensures 0 <= d.cursor <= |d.content| ==>
      && |r.content| == |d.content| + |LinkToken(entity)|
      && r.content[..d.cursor] == d.content[..d.cursor]
      && r.content[d.cursor..r.cursor] == r.links[|d.links|].linkText
      && r.content[r.cursor..] == d.content[d.cursor..]
  {
    var token := LinkToken(entity);
    var link := EntityLink(tab, entity.id, token, d.cursor, d.cursor + |token|);
    var links := d.links + [link];
    assert links[..|d.links|] == d.links && links[|d.links|] == link;
    d.(content := Splice(d.content, d.cursor, token), links := links, cursor := d.cursor + |token|)
  }

  /** `onChangeText`: the text is replaced; no span is moved. */
  function SetContent(d: Draft, text: string): (r: Draft)
    ensures r.content == text
    ensures r.cursor == d.cursor && r.mentions == d.mentions && r.links == d.links
    ensures r.attachments == d.attachments
  {
    d.(content := text)
  }

  /** `onSelectionChange`: the cursor follows the selection start. */
  function MoveCursor(d: Draft, selectionStart: int): (r: Draft)
    ensures r.cursor == selectionStart
    ensures r.content == d.content && r.mentions == d.mentions && r.links == d.links
    ensures r.attachments == d.attachments
  {
    d.(cursor := selectionStart)
  }

  /** A span that ends at or before the cursor still covers the same text
      after an insertion. */
  lemma SpanBeforeCursorKeepsText(content: string, cursor: int, token: string, start: int, end: int)
    requires 0 <= start <= end <= cursor <= |content|
    ensures Slice(Splice(content, cursor, token), start, end) == Slice(content, start, end)
  {
    var r := Splice(content, cursor, token);
    assert r[start..end] == r[..cursor][start..end];
    assert content[start..end] == content[..cursor][start..end];
  }

  /** A span that starts at or after the cursor would have to move right by
      the token's length to keep its text. The composer does not move it. */
  lemma SpanAfterCursorShifts(content: string, cursor: int, token: string, start: int, end: int)
    requires 0 <= cursor <= start <= end <= |content|
    ensures Slice(Splice(content, cursor, token), start + |token|, end + |token|)
         == Slice(content, start, end)
  {
    SpliceSuffix(content, cursor, token);
    ShiftedSlice(Splice(content, cursor, token), content, cursor, |token|, start, end);
  }

  /** Past the inserted token, the spliced text is the old text from the cursor on. */
  lemma SpliceSuffix(content: string, cursor: nat, token: string)
    requires cursor <= |content|
    ensures |Splice(content, cursor, token)| == |content| + |token|
    ensures Splice(content, cursor, token)[cursor + |token|..] == content[cursor..]
  {
  }

  /** When `r` from `cursor + k` on is `content` from `cursor` on, every
      slice of `content` past the cursor reappears in `r` shifted by `k`. */
  lemma ShiftedSlice(r: string, content: string, cursor: nat, k: nat, start: int, end: int)
    requires cursor <= start <= end <= |content|
    requires |r| == |content| + k && r[cursor + k..] == content[cursor..]
    ensures Slice(r, start + k, end + k) == Slice(content, start, end)
  {
    assert Slice(r, start + k, end + k) == r[start + k..end + k];
    assert Slice(content, start, end) == content[start..end];
    SuffixSlice(r, cursor + k, start - cursor, end - cursor);
    SuffixSlice(content, cursor, start - cursor, end - cursor);
  }

  /** A slice of a suffix is a slice of the whole, shifted by where the suffix starts. */
  lemma SuffixSlice(s: string, i: nat, a: nat, b: nat)
    requires i + b <= |s| && a <= b
    ensures s[i..][a..b] == s[i + a..i + b]
  {
  }

  /** The consequence of not shifting: mentioning Bo in front of an existing
      mention of Ann leaves Ann's span pointing at `@Bo@`. */
  lemma UnshiftedSpanDrifts()
    ensures var ann := User("u1", "Ann", "");
      var bo := User("u2", "Bo", "");
      var d := AddMention(AddMention(NewDraft(""), ann).(cursor := 0), bo);
      && d.content == "@Bo@Ann"
      && d.mentions[0].startIndex == 0 && d.mentions[0].endIndex == 4
      && Slice(d.content, d.mentions[0].startIndex, d.mentions[0].endIndex) == "@Bo@"
  {
    var ann := User("u1", "Ann", "");
    var bo := User("u2", "Bo", "");
    var d1 := AddMention(NewDraft(""), ann);
    assert d1.content == "@Ann";
    var d := AddMention(d1.(cursor := 0), bo);
    assert d.content == "@Bo" + "@Ann";
  }

  // ---------------------------------------------------------------------------
  // Attachments

  /** What the image picker hands back for one picked asset. */
  datatype PickedAsset = PickedAsset(
    uri: string, mimeType: Option<string>, fileName: Option<string>, fileSize: Option<int>)

  /** `asset.x || fallback` for an optional string: a missing or empty value falls back. */
  function OrDefault(value: Option<string>, fallback: string): (r: string)
    ensures value.Some? && value.value != "" ==> r == value.value
    ensures value.None? || value.value == "" ==> r == fallback
  {
    if value.Some? && value.value != "" then value.value else fallback
  }

  /** The attachment built in `handleAttachImage`; `id` stands for `Date.now().toString()`. */
  function NewAttachment(id: string, asset: PickedAsset): (a: Attachment)
    ensures a.id == id && a.uri == asset.uri
    ensures a.mimeType != "" && a.name != ""
    ensures asset.mimeType.None? ==> a.mimeType == "image/jpeg"
    ensures asset.fileName.None? ==> a.name == "image.jpg"
    ensures asset.fileSize.None? ==> a.size == 0
    ensures asset.fileSize.Some? ==> a.size == asset.fileSize.value
    ensures a.mimeType == OrDefault(asset.mimeType, "image/jpeg")
    ensures a.name == OrDefault(asset.fileName, "image.jpg")
  {
    Attachment(
      id, asset.uri,
      OrDefault(asset.mimeType, "image/jpeg"),
      OrDefault(asset.fileName, "image.jpg"),
      asset.fileSize.GetOr(0))
  }

  /** `handleAttachImage`: append the picked image; a cancelled pick (or a
      refused permission) leaves the draft alone. */
  function AttachImage(d: Draft, id: string, picked: Option<PickedAsset>): (r: Draft)
    ensures picked.None? ==> r == d
    ensures picked.Some? ==>
      && |r.attachments| == |d.attachments| + 1
      && r.attachments[..|d.attachments|] == d.attachments
      && r.attachments[|d.attachments|] == NewAttachment(id, picked.value)
    ensures r.content == d.content && r.cursor == d.cursor
    ensures r.mentions == d.mentions && r.links == d.links
  {
    match picked
    case None => d
    case Some(asset) => d.(attachments := d.attachments + [NewAttachment(id, asset)])
  }

  /** `handleRemoveAttachment`: drop the attachments with this id. */
  function RemoveAttachment(d: Draft, id: string): (r: Draft)
    ensures forall a :: a in r.attachments <==> a in d.attachments && a.id != id
    ensures (forall a :: a in d.attachments ==> a.id != id) ==> r == d
    ensures r.content == d.content && r.cursor == d.cursor
    ensures r.mentions == d.mentions && r.links == d.links
  {
    var kept := Filter(d.attachments, (a: Attachment) => a.id != id);
    assert (forall a :: a in d.attachments ==> a.id != id) ==> kept == d.attachments by {
      if forall a :: a in d.attachments ==> a.id != id {
        FilterKeepsAll(d.attachments, (a: Attachment) => a.id != id);
      }
    }
    d.(attachments := kept)
  }

  /** Removing an image right after attaching it under a fresh id restores the draft. */
  lemma RemoveUndoesAttach(d: Draft, id: string, asset: PickedAsset)
    requires forall a :: a in d.attachments ==> a.id != id
    ensures RemoveAttachment(AttachImage(d, id, Some(asset)), id) == d
  {
    var keep := (a: Attachment) => a.id != id;
    FilterAppend(d.attachments, [NewAttachment(id, asset)], keep);
    FilterKeepsAll(d.attachments, keep);
  }

  // ---------------------------------------------------------------------------
  // Sending

  /** The attachment row handed to the message store (`attachmentData`). */
  datatype AttachmentRecord = AttachmentRecord(
    fileName: string, originalName: string, mimeType: string, size: int,
    url: string, thumbnailUrl: Option<string>)

  function ToRecord(a: Attachment): (r: AttachmentRecord)
    ensures r.fileName == a.name && r.originalName == a.name
    ensures r.mimeType == a.mimeType && r.size == a.size && r.url == a.uri
    ensures r.thumbnailUrl.Some? <==> StartsWith(a.mimeType, "image/")
    ensures r.thumbnailUrl.Some? ==> r.thumbnailUrl.value == a.uri
  {
    AttachmentRecord(a.name, a.name, a.mimeType, a.size, a.uri,
      if StartsWith(a.mimeType, "image/") then Some(a.uri) else None)
  }

  function ToRecords(atts: seq<Attachment>): (rs: seq<AttachmentRecord>)
    ensures |rs| == |atts|
    ensures forall i :: 0 <= i < |atts| ==> rs[i] == ToRecord(atts[i])
  {
    if |atts| == 0 then [] else [ToRecord(atts[0])] + ToRecords(atts[1..])
  }

  /** What `createMessageWithMentionsAndLinks` receives. */
  datatype MessageRequest = MessageRequest(
    content: string, authorId: string, childId: string, replyToId: Option<string>,
    mentions: seq<Mention>, links: seq<EntityLink>, attachments: seq<AttachmentRecord>)

  datatype SendError = EmptyMessage | NotSignedIn | SendFailed

  /** One press of the send button: the draft afterwards, the request that
      was handed to the store (if any) and the alert shown (if any). */
  datatype SendStep = SendStep(draft: Draft, request: Option<MessageRequest>, error: Option<SendError>)

  /** Nothing to send: blank text and no image. */
  predicate NothingToSend(d: Draft) {
    IsBlank(d.content) && |d.attachments| == 0
  }

  /** The send button is enabled when no send is in flight and there is something to send. */
  predicate SendEnabled(d: Draft, loading: bool) {
    !(loading || NothingToSend(d))
  }

  /** `handleSend`. `author` is the signed-in user's id, if any; `stored`
      is the outcome of the store call. */
  function Send(d: Draft, author: Option<string>, childId: string, replyToId: Option<string>, stored: bool)
    : (r: SendStep)
    ensures r.request.None? <==> NothingToSend(d) || author.None?
    ensures NothingToSend(d) ==> r.error == Some(EmptyMessage)
    ensures !NothingToSend(d) && author.None? ==> r.error == Some(NotSignedIn)
    ensures r.request.Some? ==>
      && r.request.value.content == Trim(d.content)
      && r.request.value.authorId == author.value
      && r.request.value.childId == childId
      && r.request.value.replyToId == replyToId
      && r.request.value.mentions == d.mentions
      && r.request.value.links == d.links
      && |r.request.value.attachments| == |d.attachments|
      && (forall i :: 0 <= i < |d.attachments| ==>
            r.request.value.attachments[i] == ToRecord(d.attachments[i]))
    ensures r.request.Some? && stored ==>
      && r.error.None?
      && r.draft.content == "" && r.draft.mentions == [] && r.draft.links == []
      && r.draft.attachments == [] && r.draft.cursor == d.cursor
    ensures r.request.Some? && !stored ==> r.error == Some(SendFailed)
    ensures r.request.None? || !stored ==> r.draft == d
  {
    if NothingToSend(d) then SendStep(d, None, Some(EmptyMessage))
    else if author.None? then SendStep(d, None, Some(NotSignedIn))
    else
      var request := MessageRequest(
        Trim(d.content), author.value, childId, replyToId,
        d.mentions, d.links, ToRecords(d.attachments));
      if stored then SendStep(d.(content := "", mentions := [], links := [], attachments := []), Some(request), None)
      else SendStep(d, Some(request), Some(SendFailed))
  }

  /** The send button is enabled exactly when sending would get past the emptiness check. */
  lemma SendButtonMatchesGuard(d: Draft, author: Option<string>, childId: string,
                               replyToId: Option<string>, stored: bool)
    ensures SendEnabled(d, false) <==> Send(d, author, childId, replyToId, stored).error != Some(EmptyMessage)
  {
  }

  /** After a successful send the draft is empty, so sending again is refused. */
  lemma NoDoubleSend(d: Draft, author: Option<string>, childId: string,
                     replyToId: Option<string>, stored: bool)
    requires Send(d, author, childId, replyToId, true).error.None?
    ensures Send(Send(d, author, childId, replyToId, true).draft, author, childId, replyToId, stored).error
         == Some(EmptyMessage)
  {
  }
}

=== FILE: medication.dfy ===
/** The medication form, in two modes: "log" records a dose of a medication
    picked from the child's list, "add" creates a new medication and records
    its first dose. Saving checks the name, the dosage and who gave it, and
    in log mode that a medication was picked; the entry is tagged with the
    mode's marker tags. */
module MedicationForm {
  import opened Wrappers
  import opened Text
  import opened Seqs
  import opened TagList
  import opened SmartEntry

  datatype Mode = Log | Add

  /** A medication from the child's list. */
  datatype Medication = Medication(id: string, name: string, dosage: string, timing: string, frequency: string)

  datatype MedicationData = MedicationData(
    mode: Mode, existingMedicationId: Option<string>, medicationName: string,
    dosage: string, timing: string, frequency: Option<string>, notes: string,
    tags: seq<string>, administeredBy: string, administeredAt: Time)

  /** The form data plus the tag input. */
  datatype Screen = Screen(form: MedicationData, newTag: string)

  /** A blank form in log mode, given to the dose at `now`. */
  function Initial(now: Time): (s: Screen)
    ensures s.form.mode == Log && s.form.existingMedicationId == None
    ensures s.form.tags == [] && s.newTag == "" && s.form.administeredAt == now
  {
    Screen(MedicationData(Log, None, "", "", "", None, "", [], "", now), "")
  }

  /** `handleMedicationSelect`: copy the picked medication's id, name,
      dosage, timing and frequency into the form. */
  function Select(f: MedicationData, m: Medication): (r: MedicationData)
    ensures r.existingMedicationId == Some(m.id) && r.medicationName == m.name
    ensures r.dosage == m.dosage && r.timing == m.timing && r.frequency == Some(m.frequency)
    ensures r.mode == f.mode && r.notes == f.notes && r.tags == f.tags
    ensures r.administeredBy == f.administeredBy && r.administeredAt == f.administeredAt
  {
    f.(existingMedicationId := Some(m.id), medicationName := m.name, dosage := m.dosage,
       timing := m.timing, frequency := Some(m.frequency))
  }

  /** The cross next to the picked medication: forget the pick, keep the rest. */
  function ClearSelection(f: MedicationData): (r: MedicationData)
    ensures r.existingMedicationId == None
    ensures r.mode == f.mode && r.medicationName == f.medicationName && r.dosage == f.dosage
    ensures r.timing == f.timing && r.frequency == f.frequency && r.notes == f.notes
    ensures r.tags == f.tags && r.administeredBy == f.administeredBy && r.administeredAt == f.administeredAt
  {
    f.(existingMedicationId := None)
  }

  /** The controls of the screen. */
  datatype Action =
    | SetMode(mode: Mode)
    | Pick(medication: Medication)
    | Unpick
    | SetName(name: string)
    | SetTiming(timing: string)
    | SetFrequency(frequency: string)
    | SetDosage(dosage: string)
    | SetAdministeredBy(memberName: string)
    | SetNotes(notes: string)
    | Tags(tagAction: TagAction)

  /** One control applied to the screen state. Switching modes keeps every
      field, including a picked medication. */
  function Step(s: Screen, a: Action): (r: Screen)
    ensures NoDuplicates(s.form.tags) ==> NoDuplicates(r.form.tags)
    ensures !a.Tags? ==> r.form.tags == s.form.tags && r.newTag == s.newTag
    ensures a.Tags? ==> r.form == s.form.(tags := r.form.tags)
    ensures a.SetMode? ==> r.form == s.form.(mode := a.mode)
    ensures a.Pick? ==> r.form == Select(s.form, a.medication)
    ensures a.Unpick? ==> r.form == ClearSelection(s.form)
    ensures a.SetName? ==> r == Screen(s.form.(medicationName := a.name), s.newTag)
    ensures a.SetDosage? ==> r == Screen(s.form.(dosage := a.dosage), s.newTag)
    ensures a.SetAdministeredBy? ==> r == Screen(s.form.(administeredBy := a.memberName), s.newTag)
  {
    var f := s.form;
    match a
    case SetMode(m) => Screen(f.(mode := m), s.newTag)
    case Pick(m) => Screen(Select(f, m), s.newTag)
    case Unpick => Screen(ClearSelection(f), s.newTag)
    case SetName(n) => Screen(f.(medicationName := n), s.newTag)
    case SetTiming(t) => Screen(f.(timing := t), s.newTag)
    case SetFrequency(q) => Screen(f.(frequency := Some(q)), s.newTag)
    case SetDosage(d) => Screen(f.(dosage := d), s.newTag)
    case SetAdministeredBy(n) => Screen(f.(administeredBy := n), s.newTag)
    case SetNotes(n) => Screen(f.(notes := n), s.newTag)
    case Tags(ta) =>
      var e := TagList.Apply(TagEditor(f.tags, s.newTag), ta);
      Screen(f.(tags := e.tags), e.newTag)
  }

  /** A session of controls, applied in order. Each form has its own
      `Run`, the same fold over that form's own `Step`. */
  function Run(s: Screen, actions: seq<Action>): (r: Screen)
    ensures NoDuplicates(s.form.tags) ==> NoDuplicates(r.form.tags)
    decreases |actions|
  {
    if |actions| == 0 then s else Run(Step(s, actions[0]), actions[1..])
  }

  /** The validation failures, in the order they are checked. */
  datatype MedicationError = MissingName | MissingDosage | MissingAdministeredBy | NothingPicked

  /** The first failing check of `handleSave`: a blank name, a blank dosage,
      a blank "administered by", and then (inside the save, in log mode
      only) no picked medication, where an empty id counts as none. */
  function Check(f: MedicationData): (r: Option<MedicationError>)
    ensures r == Some(MissingName) <==> IsBlank(f.medicationName)
    ensures r == Some(MissingDosage) <==> !IsBlank(f.medicationName) && IsBlank(f.dosage)
    ensures r == Some(MissingAdministeredBy) <==>
      !IsBlank(f.medicationName) && !IsBlank(f.dosage) && IsBlank(f.administeredBy)
    ensures r == Some(NothingPicked) <==>
      !IsBlank(f.medicationName) && !IsBlank(f.dosage) && !IsBlank(f.administeredBy)
      && f.mode == Log && !Truthy(f.existingMedicationId)
  {
    if IsBlank(f.medicationName) then Some(MissingName)
    else if IsBlank(f.dosage) then Some(MissingDosage)
    else if IsBlank(f.administeredBy) then Some(MissingAdministeredBy)
    else if f.mode == Log && !Truthy(f.existingMedicationId) then Some(NothingPicked)
    else None
  }

  /** The tags appended to the form's tags: the generic one, then the mode's own. */
  function MarkerTags(mode: Mode): (t: seq<string>)
    ensures |t| == 2 && t[0] == "medication"
    ensures t[1] == (if mode == Add then "new-medication" else "medication-log")
  {
    ["medication", if mode == Add then "new-medication" else "medication-log"]
  }

  /** The medication `createMedication` is called with (add mode). */
  datatype NewMedication = NewMedication(
    name: string, dosage: string, timing: string, frequency: Option<string>, notes: string, childId: string)

  /** The dose `logMedication` is called with. */
  datatype DoseLog = DoseLog(
    medicationId: string, administeredBy: string, dosageGiven: string, notes: string, administeredAt: Time)

  /** The entry `createEntry` is called with; the fields from
      `medicationType` on form its `data`. */
  datatype Entry = Entry(
    title: string, description: string, tags: seq<string>, userId: string, childId: string,
    medicationType: string, medicationId: string, medicationName: string, dosage: string,
    administeredBy: string, administeredAt: Time, createdVia: string)

  /** What a save sends to the database, in order. */
  datatype Requests = Requests(create: Option<NewMedication>, dose: DoseLog, entry: Entry)

  /** The log-mode description: the notes are added only when there are any. */
  function LogDescription(notes: string): (d: string)
    ensures notes == "" ==> d == "Medication administered. "
    ensures notes != "" ==> d == "Medication administered. Notes: " + notes
  {
    "Medication administered. " + (if notes != "" then "Notes: " + notes else "")
  }

  /** `handleSave` up to the database calls. In add mode the new
      medication's id is the one `createMedication` returns, passed in as
      `createdId`; in log mode the picked medication's id is used. */
  function Save(f: MedicationData, createdId: string): (r: Result<Requests, MedicationError>)
    ensures r.Failure? <==> Check(f).Some?
    ensures r.Failure? ==> r.error == Check(f).value
    ensures r.Success? ==> (r.value.create.Some? <==> f.mode == Add)
    ensures r.Success? ==> r.value.entry.tags == f.tags + MarkerTags(f.mode)
    ensures r.Success? ==> r.value.entry.medicationType == r.value.entry.tags[|r.value.entry.tags| - 1]
    ensures r.Success? ==> r.value.dose.medicationId == r.value.entry.medicationId
    ensures r.Success? ==> r.value.entry.medicationId == (if f.mode == Add then createdId else f.existingMedicationId.value)
    ensures r.Success? ==> r.value.dose.dosageGiven == f.dosage && r.value.dose.administeredBy == f.administeredBy
    ensures r.Success? && f.mode == Add ==>
      r.value.entry.title == "Added new medication: " + f.medicationName
    ensures r.Success? && f.mode == Log ==>
      r.value.entry.title == "Took medication: " + f.medicationName
    ensures r.Success? && f.mode == Add ==>
      r.value.create.value == NewMedication(f.medicationName, f.dosage, f.timing, f.frequency, f.notes, PlaceholderChildId)
    ensures r.Success? ==> r.value.dose.notes == f.notes && r.value.dose.administeredAt == f.administeredAt
    ensures r.Success? ==> var e := r.value.entry;
      && e.medicationName == f.medicationName && e.dosage == f.dosage
      && e.administeredBy == f.administeredBy && e.administeredAt == f.administeredAt
      && e.userId == PlaceholderUserId && e.childId == PlaceholderChildId && e.createdVia == CreatedVia
    ensures r.Success? && f.mode == Add ==>
      r.value.entry.description == "New medication added and first dose administered. Dosage: " + f.dosage + ", Timing: " + f.timing
    ensures r.Success? && f.mode == Log ==> r.value.entry.description == LogDescription(f.notes)
  {
    match Check(f)
    case Some(e) => Failure(e)
    case None =>
      var tags := f.tags + MarkerTags(f.mode);
      if f.mode == Add then
        var create := NewMedication(f.medicationName, f.dosage, f.timing, f.frequency, f.notes, PlaceholderChildId);
        var dose := DoseLog(createdId, f.administeredBy, f.dosage, f.notes, f.administeredAt);
        var entry := Entry(
          "Added new medication: " + f.medicationName,
          "New medication added and first dose administered. Dosage: " + f.dosage + ", Timing: " + f.timing,
          tags, PlaceholderUserId, PlaceholderChildId, "new-medication", createdId,
          f.medicationName, f.dosage, f.administeredBy, f.administeredAt, CreatedVia);
        Success(Requests(Some(create), dose, entry))
      else
        var id := f.existingMedicationId.value;
        var dose := DoseLog(id, f.administeredBy, f.dosage, f.notes, f.administeredAt);
        var entry := Entry(
          "Took medication: " + f.medicationName, LogDescription(f.notes),
          tags, PlaceholderUserId, PlaceholderChildId, "medication-log", id,
          f.medicationName, f.dosage, f.administeredBy, f.administeredAt, CreatedVia);
        Success(Requests(None, dose, entry))
  }

  /** A database call of the medication save. */
  datatype Call = CreateMedication(medication: NewMedication) | LogMedication(dose: DoseLog) | CreateEntry(entry: Entry)

  /** The calls a planned save awaits, in order: the new medication (add
      mode), the dose, then the entry. */
  function Calls(q: Requests): (c: seq<Call>)
    ensures |c| == (if q.create.Some? then 3 else 2)
    ensures q.create.Some? ==> c[0] == CreateMedication(q.create.value)
    ensures c[|c| - 2] == LogMedication(q.dose) && c[|c| - 1] == CreateEntry(q.entry)
  {
    (if q.create.Some? then [CreateMedication(q.create.value)] else [])
    + [LogMedication(q.dose), CreateEntry(q.entry)]
  }

  /** `handleSave` with its database calls: `medicationCreated`,
      `doseLogged` and `entryStored` say whether `createMedication`,
      `logMedication` and `createEntry` would succeed. A rejected call stops
      the save, so the dose is logged only once the new medication exists,
      and the entry is created only once the dose was logged. */
  function Submit(f: MedicationData, createdId: string, medicationCreated: bool, doseLogged: bool, entryStored: bool)
    : (r: Result<Outcome<Call>, MedicationError>)
    ensures r.Failure? <==> Check(f).Some?
    ensures r.Failure? ==> r.error == Check(f).value
    ensures r.Success? && f.mode == Add ==>
      0 < |r.value.sent| && r.value.sent[0] == CreateMedication(Save(f, createdId).value.create.value)
    ensures r.Success? ==>
      (LogMedication(Save(f, createdId).value.dose) in r.value.sent <==> (f.mode == Add ==> medicationCreated))
    ensures r.Success? ==>
      (CreateEntry(Save(f, createdId).value.entry) in r.value.sent <==>
         (f.mode == Add ==> medicationCreated) && doseLogged)
    ensures r.Success? ==>
      (r.value.ok <==> (f.mode == Add ==> medicationCreated) && doseLogged && entryStored)
  {
    match Save(f, createdId)
    case Failure(e) => Failure(e)
    case Success(q) =>
      var plan := Calls(q);
      var accepted := (if f.mode == Add then [medicationCreated] else []) + [doseLogged, entryStored];
      var r := Await(plan, accepted);
      SentCalls(plan, accepted, r, f.mode == Add);
      Success(r)
  }

  /** Which of the planned calls a run of `Await` sent, spelled out for the
      two plan shapes. */
  lemma SentCalls(plan: seq<Call>, accepted: seq<bool>, r: Outcome<Call>, add: bool)
    requires |plan| == |accepted| == (if add then 3 else 2) && r == Await(plan, accepted)
    requires add ==> plan[0].CreateMedication?
    requires plan[|plan| - 2].LogMedication? && plan[|plan| - 1].CreateEntry?
    ensures add ==> 0 < |r.sent| && r.sent[0] == plan[0]
    ensures plan[|plan| - 2] in r.sent <==> (add ==> accepted[0])
    ensures plan[|plan| - 1] in r.sent <==> (add ==> accepted[0]) && accepted[|plan| - 2]
    ensures r.ok <==> (add ==> accepted[0]) && accepted[|plan| - 2] && accepted[|plan| - 1]
  {
    if add {
      SentCallsOfThree(plan, accepted);
    } else {
      SentCallsOfTwo(plan, accepted);
    }
  }

  /** The add-mode plan: new medication, dose, entry. */
  lemma SentCallsOfThree(plan: seq<Call>, accepted: seq<bool>)
    requires |plan| == |accepted| == 3
    requires plan[0].CreateMedication? && plan[1].LogMedication? && plan[2].CreateEntry?
    ensures var r := Await(plan, accepted);
      r.sent == (if !accepted[0] then [plan[0]] else if !accepted[1] then [plan[0], plan[1]] else plan)
  {
    if !accepted[0] {
      AwaitStopsAtFirstRejection(plan, accepted, 0);
      assert plan[..1] == [plan[0]];
    } else if !accepted[1] {
      AwaitStopsAtFirstRejection(plan, accepted, 1);
      assert plan[..2] == [plan[0], plan[1]];
    } else if !accepted[2] {
      AwaitStopsAtFirstRejection(plan, accepted, 2);
      assert plan[..3] == plan;
    }
  }

  /** The log-mode plan: dose, entry. */
  lemma SentCallsOfTwo(plan: seq<Call>, accepted: seq<bool>)
    requires |plan| == |accepted| == 2
    requires plan[0].LogMedication? && plan[1].CreateEntry?
    ensures var r := Await(plan, accepted);
      r.sent == (if !accepted[0] then [plan[0]] else plan)
  {
    if !accepted[0] {
      AwaitStopsAtFirstRejection(plan, accepted, 0);
      assert plan[..1] == [plan[0]];
    } else if !accepted[1] {
      AwaitStopsAtFirstRejection(plan, accepted, 1);
      assert plan[..2] == plan;
    }
  }

  /** A rejected `createMedication` stops an add-mode save before any dose
      or entry is requested. */
  lemma FailedCreateSendsNothingElse(f: MedicationData, createdId: string, doseLogged: bool, entryStored: bool)
    requires f.mode == Add && Check(f) == None
    ensures Submit(f, createdId, false, doseLogged, entryStored)
      == Success(Outcome([CreateMedication(Save(f, createdId).value.create.value)], false))
  {
    var q := Save(f, createdId).value;
    var plan := Calls(q);
    SentCallsOfThree(plan, [false, doseLogged, entryStored]);
  }

  /** A rejected dose log stops a log-mode save before the entry is requested. */
  lemma FailedDoseSendsNoEntry(f: MedicationData, createdId: string, entryStored: bool)
    requires f.mode == Log && Check(f) == None
    ensures Submit(f, createdId, true, false, entryStored)
      == Success(Outcome([LogMedication(Save(f, createdId).value.dose)], false))
  {
    var q := Save(f, createdId).value;
    var plan := Calls(q);
    assert plan == [LogMedication(q.dose), CreateEntry(q.entry)];
    SentCallsOfTwo(plan, [false, entryStored]);
  }

  /** A pick fills in the name and dosage, and (with a non-empty id)
      satisfies the log-mode selection check. */
  lemma PickPassesChecks(f: MedicationData, m: Medication)
    requires !IsBlank(f.administeredBy)
    requires !IsBlank(m.name) && !IsBlank(m.dosage) && m.id != ""
    ensures Check(Select(f, m)) == None
  {
    var g := Select(f, m);
    assert g.medicationName == m.name && g.dosage == m.dosage && g.administeredBy == f.administeredBy;
    assert Truthy(g.existingMedicationId);
  }

  /** Picking a medication in log mode, with someone named as giving it,
      is enough to log a dose of it. */
  lemma PickThenLog(f: MedicationData, m: Medication, createdId: string)
    requires f.mode == Log && !IsBlank(f.administeredBy)
    requires !IsBlank(m.name) && !IsBlank(m.dosage) && m.id != ""
    ensures var r := Save(Select(f, m), createdId);
      && r.Success? && r.value.create == None
      && r.value.dose.medicationId == m.id && r.value.dose.dosageGiven == m.dosage
      && r.value.entry.title == "Took medication: " + m.name
  {
    PickPassesChecks(f, m);
  }

  /** Clearing the pick of an otherwise complete log-mode form makes the
      save fail on the selection check. */
  lemma UnpickBlocksLog(f: MedicationData, createdId: string)
    requires f.mode == Log
    requires !IsBlank(f.medicationName) && !IsBlank(f.dosage) && !IsBlank(f.administeredBy)
    ensures Save(ClearSelection(f), createdId) == Failure(NothingPicked)
  {
    var g := ClearSelection(f);
    assert g.medicationName == f.medicationName && g.dosage == f.dosage && g.administeredBy == f.administeredBy;
  }

  /** Add mode ignores the pick: a complete form saves in add mode without one. */
  lemma AddModeIgnoresPick(f: MedicationData, createdId: string)
    requires !IsBlank(f.medicationName) && !IsBlank(f.dosage) && !IsBlank(f.administeredBy)
    ensures Save(ClearSelection(f).(mode := Add), createdId).Success?
  {
    var g := ClearSelection(f).(mode := Add);
    assert g.medicationName == f.medicationName && g.dosage == f.dosage && g.administeredBy == f.administeredBy;
  }

  /** The field checks come before the selection check: an unpicked log-mode
      form with a blank dosage is reported as missing its dosage. */
  lemma FieldChecksFirst(f: MedicationData, createdId: string)
    requires !IsBlank(f.medicationName) && IsBlank(f.dosage)
    requires f.mode == Log && f.existingMedicationId == None
    ensures Save(f, createdId) == Failure(MissingDosage)
  {
  }
}

=== FILE: note.dfy ===
/** The note form: title, description, priority, tags and the "pin" and
    "private" switches. Saving stamps `pinnedAt`/`privateAt` with the
    current time exactly when the matching switch is on. */
module NoteForm {
  import opened Wrappers
  import opened Text
  import opened Seqs
  import opened TagList
  import opened SmartEntry

  datatype Note = Note(
    title: string, description: string, priority: Priority, tags: seq<string>,
    isPinned: bool, isPrivate: bool)

  /** The form data plus the tag input. */
  datatype Screen = Screen(form: Note, newTag: string)

  /** A blank form: medium priority, no tags, neither pinned nor private. */
  function Initial(): (s: Screen)
    ensures s.form.tags == [] && s.newTag == ""
    ensures !s.form.isPinned && !s.form.isPrivate
  {
    Screen(Note("", "", Medium, [], false, false), "")
  }

  /** The controls of the screen. */
  datatype Action =
    | SetTitle(title: string)
    | SetDescription(description: string)
    | SetPriority(priority: Priority)
    | Tags(tagAction: TagAction)
    | TogglePinned
    | TogglePrivate

  /** One control applied to the screen state. */
  function Step(s: Screen, a: Action): (r: Screen)
    ensures NoDuplicates(s.form.tags) ==> NoDuplicates(r.form.tags)
    ensures !a.Tags? ==> r.form.tags == s.form.tags && r.newTag == s.newTag
    ensures a.Tags? ==> r.form == s.form.(tags := r.form.tags)
    ensures r.form.isPinned == (s.form.isPinned != a.TogglePinned?)
    ensures r.form.isPrivate == (s.form.isPrivate != a.TogglePrivate?)
    ensures a.SetTitle? ==> r == Screen(s.form.(title := a.title), s.newTag)
    ensures a.SetDescription? ==> r == Screen(s.form.(description := a.description), s.newTag)
    ensures a.SetPriority? ==> r == Screen(s.form.(priority := a.priority), s.newTag)
    ensures a.TogglePinned? ==> r.form == s.form.(isPinned := r.form.isPinned)
    ensures a.TogglePrivate? ==> r.form == s.form.(isPrivate := r.form.isPrivate)
  {
    var f := s.form;
    match a
    case SetTitle(t) => Screen(f.(title := t), s.newTag)
    case SetDescription(d) => Screen(f.(description := d), s.newTag)
    case SetPriority(p) => Screen(f.(priority := p), s.newTag)
    case Tags(ta) =>
      var e := TagList.Apply(TagEditor(f.tags, s.newTag), ta);
      Screen(f.(tags := e.tags), e.newTag)
    case TogglePinned => Screen(f.(isPinned := !f.isPinned), s.newTag)
    case TogglePrivate => Screen(f.(isPrivate := !f.isPrivate), s.newTag)
  }

  /** A session of controls, applied in order. Each form has its own
      `Run`, the same fold over that form's own `Step`. */
  function Run(s: Screen, actions: seq<Action>): (r: Screen)
    ensures NoDuplicates(s.form.tags) ==> NoDuplicates(r.form.tags)
    decreases |actions|
  {
    if |actions| == 0 then s else Run(Step(s, actions[0]), actions[1..])
  }

  /** The entry `createEntry` is called with; `noteType` and `createdVia`
      form its `data`. */
  datatype Entry = Entry(
    title: string, description: string, priority: Priority, tags: seq<string>,
    userId: string, childId: string, pinnedAt: Option<Time>, privateAt: Option<Time>,
    noteType: string, createdVia: string)

  /** The only validation failure: "Please enter a title". */
  datatype NoteError = MissingTitle

  /** `handleSave` up to the database call: reject a blank title, otherwise
      build a general note created via the smart entry, pinned and private
      at `now` exactly when the switches are on. */
  function Save(f: Note, now: Time): (r: Result<Entry, NoteError>)
    ensures r.Failure? <==> IsBlank(f.title)
    ensures r.Success? ==> r.value.title == f.title && r.value.tags == f.tags
    ensures r.Success? ==> r.value.description == f.description && r.value.priority == f.priority
    ensures r.Success? ==> (r.value.pinnedAt.Some? <==> f.isPinned) && (r.value.privateAt.Some? <==> f.isPrivate)
    ensures r.Success? ==> r.value.pinnedAt.GetOr(now) == now && r.value.privateAt.GetOr(now) == now
    ensures r.Success? ==> r.value.noteType == "general" && r.value.createdVia == CreatedVia
  {
    if IsBlank(f.title) then Failure(MissingTitle)
    else
      Success(Entry(
        f.title, f.description, f.priority, f.tags, PlaceholderUserId, PlaceholderChildId,
        if f.isPinned then Some(now) else None,
        if f.isPrivate then Some(now) else None,
        "general", CreatedVia))
  }

  /** Each switch flips only its own flag, so pressing it twice restores the
      screen, and the two switches commute. */
  lemma TogglesInvolutive(s: Screen)
    ensures Step(Step(s, TogglePinned), TogglePinned) == s
    ensures Step(Step(s, TogglePrivate), TogglePrivate) == s
    ensures Step(Step(s, TogglePinned), TogglePrivate) == Step(Step(s, TogglePrivate), TogglePinned)
  {
  }

  /** Pressing the pin switch changes exactly whether the saved note is
      pinned; nothing else about the entry changes. */
  lemma PinSwitchOnlyPins(s: Screen, now: Time)
    requires !IsBlank(s.form.title)
    ensures var t := Step(s, TogglePinned).form;
      && Save(t, now).Success?
      && (Save(t, now).value.pinnedAt.Some? <==> Save(s.form, now).value.pinnedAt.None?)
      && Save(t, now).value.(pinnedAt := None) == Save(s.form, now).value.(pinnedAt := None)
  {
    var t := Step(s, TogglePinned).form;
    assert t == s.form.(isPinned := !s.form.isPinned);
  }
}

=== FILE: question.dfy ===
/** The question form: a question for one specialist, optionally assigned
    to a team member, with an urgency switch. Saving checks the title, the
    question text and the specialist in that order, and tags the entry with
    the specialist's specialty as a slug. */
module QuestionForm {
  import opened Wrappers
  import opened Text
  import opened Seqs
  import opened TagList
  import opened SmartEntry

  /** A specialist the question can be addressed to. */
  datatype Specialist = Specialist(id: string, name: string, specialty: string, kind: string)

  datatype Question = Question(
    title: string, description: string, priority: Priority, tags: seq<string>,
    specialistId: Option<string>, assignedToId: Option<string>, dueDate: Option<Time>,
    isUrgent: bool)

  /** The form data plus the tag input. */
  datatype Screen = Screen(form: Question, newTag: string)

  /** A blank form: medium priority, no tags, no specialist, not urgent. */
  function Initial(): (s: Screen)
    ensures s.form.tags == [] && s.newTag == ""
    ensures s.form.specialistId == None && s.form.assignedToId == None && !s.form.isUrgent
  {
    Screen(Question("", "", Medium, [], None, None, None, false), "")
  }

  /** The controls of the screen. */
  datatype Action =
    | SetTitle(title: string)
    | SetDescription(description: string)
    | SelectSpecialist(id: string)
    | ClearSpecialist
    | SetPriority(priority: Priority)
    | AskMyself
    | AssignTo(memberId: string)
    | Tags(tagAction: TagAction)
    | ToggleUrgent

  /** One control applied to the screen state. "I'll ask myself" clears the
      assignee; the urgency switch flips its flag. */
  function Step(s: Screen, a: Action): (r: Screen)
    ensures NoDuplicates(s.form.tags) ==> NoDuplicates(r.form.tags)
    ensures !a.Tags? ==> r.form.tags == s.form.tags && r.newTag == s.newTag
    ensures a.Tags? ==> r.form == s.form.(tags := r.form.tags)
    ensures a.AskMyself? ==> r.form == s.form.(assignedToId := None)
    ensures r.form.isUrgent == (s.form.isUrgent != a.ToggleUrgent?)
    ensures a.ClearSpecialist? ==> r.form.specialistId == None
    ensures a.SelectSpecialist? ==> r.form.specialistId == Some(a.id)
    ensures a.SetTitle? ==> r == Screen(s.form.(title := a.title), s.newTag)
    ensures a.SetDescription? ==> r == Screen(s.form.(description := a.description), s.newTag)
    ensures a.SetPriority? ==> r == Screen(s.form.(priority := a.priority), s.newTag)
    ensures a.AssignTo? ==> r == Screen(s.form.(assignedToId := Some(a.memberId)), s.newTag)
  {
    var f := s.form;
    match a
    case SetTitle(t) => Screen(f.(title := t), s.newTag)
    case SetDescription(d) => Screen(f.(description := d), s.newTag)
    case SelectSpecialist(id) => Screen(f.(specialistId := Some(id)), s.newTag)
    case ClearSpecialist => Screen(f.(specialistId := None), s.newTag)
    case SetPriority(p) => Screen(f.(priority := p), s.newTag)
    case AskMyself => Screen(f.(assignedToId := None), s.newTag)
    case AssignTo(id) => Screen(f.(assignedToId := Some(id)), s.newTag)
    case Tags(ta) =>
      var e := TagList.Apply(TagEditor(f.tags, s.newTag), ta);
      Screen(f.(tags := e.tags), e.newTag)
    case ToggleUrgent => Screen(f.(isUrgent := !f.isUrgent), s.newTag)
  }

  /** A session of controls, applied in order. Each form has its own
      `Run`, the same fold over that form's own `Step`. */
  function Run(s: Screen, actions: seq<Action>): (r: Screen)
    ensures NoDuplicates(s.form.tags) ==> NoDuplicates(r.form.tags)
    decreases |actions|
  {
    if |actions| == 0 then s else Run(Step(s, actions[0]), actions[1..])
  }

  /** The validation failures, in the order they are checked. */
  datatype QuestionError = MissingTitle | MissingQuestion | MissingSpecialist

  /** The first failing check of `handleSave`: a blank title, then a blank
      question text, then no specialist (an empty id counts as none). */
  function Check(f: Question): (r: Option<QuestionError>)
    ensures r == Some(MissingTitle) <==> IsBlank(f.title)
    ensures r == Some(MissingQuestion) <==> !IsBlank(f.title) && IsBlank(f.description)
    ensures r == Some(MissingSpecialist) <==> !IsBlank(f.title) && !IsBlank(f.description) && !Truthy(f.specialistId)
    ensures r == None <==> !IsBlank(f.title) && !IsBlank(f.description) && Truthy(f.specialistId)
  {
    if IsBlank(f.title) then Some(MissingTitle)
    else if IsBlank(f.description) then Some(MissingQuestion)
    else if !Truthy(f.specialistId) then Some(MissingSpecialist)
    else None
  }

  /** Position `k` holds the first specialist whose id is `id`. */
  predicate FirstWithId(specialists: seq<Specialist>, id: Option<string>, k: int) {
    && 0 <= k < |specialists| && id == Some(specialists[k].id)
    && forall j :: 0 <= j < k ==> id != Some(specialists[j].id)
  }

  /** `specialists.find(s => s.id === id)`: the first specialist with that id. */
  function Find(specialists: seq<Specialist>, id: Option<string>): (r: Option<Specialist>)
    ensures r.Some? ==> r.value in specialists && id == Some(r.value.id)
    ensures r.None? <==> forall k :: 0 <= k < |specialists| ==> id != Some(specialists[k].id)
    ensures r.Some? ==> exists k :: FirstWithId(specialists, id, k) && specialists[k] == r.value
  {
    if |specialists| == 0 then None
    else if id == Some(specialists[0].id) then Some(specialists[0])
    else
      var r := Find(specialists[1..], id);
      assert r.Some? ==> exists k :: FirstWithId(specialists, id, k) && specialists[k] == r.value by {
        if r.Some? {
          var k :| FirstWithId(specialists[1..], id, k) && specialists[1..][k] == r.value;
          assert specialists[k + 1] == r.value;
          forall j | 0 <= j < k + 1 ensures id != Some(specialists[j].id) {
            if j > 0 { assert specialists[j] == specialists[1..][j - 1]; }
          }
          assert FirstWithId(specialists, id, k + 1);
        }
      }
      r
  }

  /** The extra tag: `selected?.specialty.toLowerCase().replace(/\s+/g, '-') || ''`. */
  function SpecialtyTag(selected: Option<Specialist>): (t: string)
    ensures NoWhitespace(t) && NoUpperAscii(t)
    ensures selected.None? ==> t == ""
    ensures selected.Some? ==> t == Slug(selected.value.specialty)
  {
    match selected
    case Some(s) => Slug(s.specialty)
    case None => ""
  }

  /** The entry `createEntry` is called with; the fields from `questionType`
      on form its `data`. */
  datatype Entry = Entry(
    title: string, description: string, priority: Priority, tags: seq<string>,
    userId: string, childId: string, assignedToId: Option<string>, dueDate: Option<Time>,
    questionType: string, specialistId: string, specialistName: Option<string>,
    specialistSpecialty: Option<string>, isUrgent: bool, status: string, createdVia: string)

  /** `handleSave` up to the database call. */
  function Save(f: Question, specialists: seq<Specialist>): (r: Result<Entry, QuestionError>)
    ensures r.Failure? <==> Check(f).Some?
    ensures r.Failure? ==> r.error == Check(f).value
    ensures r.Success? ==> |r.value.tags| == |f.tags| + 1 && r.value.tags[..|f.tags|] == f.tags
    ensures r.Success? ==> r.value.tags[|f.tags|] == SpecialtyTag(Find(specialists, f.specialistId))
    ensures r.Success? ==> r.value.questionType == "specialist" && r.value.status == "pending"
    ensures r.Success? ==> Some(r.value.specialistId) == f.specialistId && r.value.isUrgent == f.isUrgent
    ensures r.Success? ==> (r.value.specialistName.Some? <==> Find(specialists, f.specialistId).Some?)
    ensures r.Success? ==> r.value.title == f.title && r.value.description == f.description && r.value.priority == f.priority
    ensures r.Success? ==> var sel := Find(specialists, f.specialistId);
      && r.value.specialistName == (if sel.Some? then Some(sel.value.name) else None)
      && r.value.specialistSpecialty == (if sel.Some? then Some(sel.value.specialty) else None)
  {
    match Check(f)
    case Some(e) => Failure(e)
    case None =>
      var selected := Find(specialists, f.specialistId);
      Success(Entry(
        f.title, f.description, f.priority, f.tags + [SpecialtyTag(selected)],
        PlaceholderUserId, PlaceholderChildId, f.assignedToId, f.dueDate,
        "specialist", f.specialistId.value,
        if selected.Some? then Some(selected.value.name) else None,
        if selected.Some? then Some(selected.value.specialty) else None,
        f.isUrgent, "pending", CreatedVia))
  }

  predicate UniqueIds(specialists: seq<Specialist>) {
    forall i, j :: 0 <= i < j < |specialists| ==> specialists[i].id != specialists[j].id
  }

  /** With distinct ids, looking up a listed specialist by its id finds it. */
  lemma {:induction false} FindListed(specialists: seq<Specialist>, s: Specialist)
    requires UniqueIds(specialists) && s in specialists
    ensures Find(specialists, Some(s.id)) == Some(s)
  {
    if specialists[0] != s {
      assert s in specialists[1..];
      assert UniqueIds(specialists[1..]);
      FindListed(specialists[1..], s);
      var k :| 0 <= k < |specialists| && specialists[k] == s;
      assert specialists[0].id != s.id;
    }
  }

  /** Picking a listed specialist on a filled-in form makes the save go
      through, tagged with that specialist's specialty slug and carrying
      their name. */
  lemma PickedSpecialistIsTagged(s: Screen, specialists: seq<Specialist>, sp: Specialist)
    requires UniqueIds(specialists) && sp in specialists && sp.id != ""
    requires !IsBlank(s.form.title) && !IsBlank(s.form.description)
    ensures var r := Save(Step(s, SelectSpecialist(sp.id)).form, specialists);
      && r.Success?
      && r.value.tags == s.form.tags + [Slug(sp.specialty)]
      && r.value.specialistName == Some(sp.name)
  {
    FindListed(specialists, sp);
    var f := Step(s, SelectSpecialist(sp.id)).form;
    assert f == s.form.(specialistId := Some(sp.id));
    assert f.title == s.form.title && f.description == s.form.description && f.tags == s.form.tags;
    assert Check(f) == None;
    var r := Save(f, specialists);
    assert r.value.tags == f.tags + [r.value.tags[|f.tags|]];
  }

  /** Clearing the specialist of a filled-in form makes the save fail on
      the specialist check, whatever else the form holds. */
  lemma ClearedSpecialistBlocksSave(s: Screen, specialists: seq<Specialist>)
    requires !IsBlank(s.form.title) && !IsBlank(s.form.description)
    ensures Save(Step(s, ClearSpecialist).form, specialists) == Failure(MissingSpecialist)
  {
    var f := Step(s, ClearSpecialist).form;
    assert f == s.form.(specialistId := None);
    assert f.title == s.form.title && f.description == s.form.description;
    assert Check(f) == Some(MissingSpecialist);
  }

  /** The title check comes first: a blank title is reported even when the
      question text and the specialist are missing too. */
  lemma TitleCheckedFirst(f: Question, specialists: seq<Specialist>)
    requires IsBlank(f.title)
    ensures Save(f, specialists) == Failure(MissingTitle)
  {
  }
}

=== FILE: renderer.dfy ===
/** The message body renderer (`renderContent` of the message item): the
    stored mentions and links of a message are merged into one marker list,
    stable-sorted by start offset, and the text is cut into plain, mention
    and link segments. Offsets are JavaScript numbers; `slice` resolves them
    with its negative-index and clamping rules, and the renderer neither
    rejects nor repairs overlapping spans. */
module Renderer {
  import opened Text

  /** A mention as stored with a message. */
  datatype StoredMention = StoredMention(id: string, userId: string, startIndex: int, endIndex: int, userName: string)

  /** An entity link as stored with a message. */
  datatype StoredLink = StoredLink(
    id: string, entityType: string, entityId: string, linkText: string, startIndex: int, endIndex: int)

  /** A merged marker, tagged with its kind. */
  datatype Marker = MentionMarker(mention: StoredMention) | LinkMarker(link: StoredLink) {
    function Start(): int {
      match this
      case MentionMarker(m) => m.startIndex
      case LinkMarker(l) => l.startIndex
    }
    function End(): int {
      match this
      case MentionMarker(m) => m.endIndex
      case LinkMarker(l) => l.endIndex
    }
  }

  /** A rendered piece of the body: plain text, or the text of one marker. */
  datatype Segment = Plain(text: string) | Marked(text: string, marker: Marker)

  // ---------------------------------------------------------------------------
  // Merging and the stable sort

  /** Mentions first, then links, each keeping its stored order. */
  function Merge(mentions: seq<StoredMention>, links: seq<StoredLink>): (r: seq<Marker>)
    ensures |r| == |mentions| + |links|
    ensures forall i :: 0 <= i < |mentions| ==> r[i] == MentionMarker(mentions[i])
    ensures forall i :: 0 <= i < |links| ==> r[|mentions| + i] == LinkMarker(links[i])
  {
    seq(|mentions|, i requires 0 <= i < |mentions| => MentionMarker(mentions[i]))
    + seq(|links|, i requires 0 <= i < |links| => LinkMarker(links[i]))
  }

  predicate Sorted(s: seq<Marker>) {
    forall i, j :: 0 <= i < j < |s| ==> s[i].Start() <= s[j].Start()
  }

  /** Inserts `m` into a sorted list after every marker that starts no later than it. */
  function Insert(xs: seq<Marker>, m: Marker): (r: seq<Marker>)
    ensures |r| == |xs| + 1
    ensures multiset(r) == multiset(xs) + multiset{m}
    ensures Sorted(xs) ==> Sorted(r)
  {
    if |xs| == 0 then [m]
    else
      var last := xs[|xs| - 1];
      if last.Start() <= m.Start() then xs + [m]
      else
        var front := Insert(xs[..|xs| - 1], m);
        assert xs == xs[..|xs| - 1] + [last];
        assert Sorted(xs) ==> forall i :: 0 <= i < |front| ==> front[i].Start() <= last.Start() by {
          if Sorted(xs) {
            forall i | 0 <= i < |front| ensures front[i].Start() <= last.Start() {
              assert front[i] in multiset(front);
              if front[i] != m {
                assert front[i] in multiset(xs[..|xs| - 1]);
                var j :| 0 <= j < |xs| - 1 && xs[j] == front[i];
              }
            }
          }
        }
        front + [last]
  }

  /** `Array.prototype.sort` with comparator `a.startIndex - b.startIndex`,
      which is stable: an insertion sort that never moves a marker in
      front of one with an equal start. */
  function SortByStart(s: seq<Marker>): (r: seq<Marker>)
    ensures |r| == |s|
    ensures multiset(r) == multiset(s)
    ensures Sorted(r)
  {
    if |s| == 0 then []
    else
      assert s == s[..|s| - 1] + [s[|s| - 1]];
      Insert(SortByStart(s[..|s| - 1]), s[|s| - 1])
  }

  /** The markers of `s` that start at `k`, in the order they appear in `s`. */
  function KeyRun(s: seq<Marker>, k: int): (r: seq<Marker>)
  {
    if |s| == 0 then []
    else KeyRun(s[..|s| - 1], k) + (if s[|s| - 1].Start() == k then [s[|s| - 1]] else [])
  }

  /** The run of `k` holds exactly the markers of `s` that start at `k`. */
  lemma {:induction false} KeyRunMembers(s: seq<Marker>, k: int)
    ensures forall x :: x in KeyRun(s, k) <==> x in s && x.Start() == k
  {
    if |s| > 0 {
      KeyRunMembers(s[..|s| - 1], k);
      assert s == s[..|s| - 1] + [s[|s| - 1]];
    }
  }

  /** `r` is a stable sort of `s`: sorted, and markers with equal starts keep
      their relative order. */
  ghost predicate IsStableSortOf(r: seq<Marker>, s: seq<Marker>) {
    Sorted(r) && forall k :: KeyRun(r, k) == KeyRun(s, k)
  }

  /** Inserting `m` adds it at the end of its own start's run and leaves the other runs alone. */
  lemma {:induction false} InsertKeyRun(xs: seq<Marker>, m: Marker, k: int)
    ensures KeyRun(Insert(xs, m), k) == KeyRun(xs, k) + (if m.Start() == k then [m] else [])
  {
    if |xs| > 0 {
      var last := xs[|xs| - 1];
      var front := xs[..|xs| - 1];
      assert xs == front + [last];
      if last.Start() <= m.Start() {
        InsertKeyRunAtEnd(xs, m, k);
      } else {
        InsertKeyRun(front, m, k);
        InsertKeyRunPast(front, last, m, k);
      }
    }
  }

  /** The step of `InsertKeyRun` where `m` goes at the end. */
  lemma InsertKeyRunAtEnd(xs: seq<Marker>, m: Marker, k: int)
    requires |xs| > 0 && xs[|xs| - 1].Start() <= m.Start()
    ensures KeyRun(Insert(xs, m), k) == KeyRun(xs, k) + (if m.Start() == k then [m] else [])
  {
    assert Insert(xs, m) == xs + [m];
    KeyRunSnoc(xs, m, k);
  }

  /** The step of `InsertKeyRun` where `m` moves in front of the last marker:
      at most one of the two starts equals `k`, so the order of the two
      appended runs does not matter. */
  lemma InsertKeyRunPast(front: seq<Marker>, last: Marker, m: Marker, k: int)
    requires m.Start() < last.Start()
    requires KeyRun(Insert(front, m), k) == KeyRun(front, k) + (if m.Start() == k then [m] else [])
    ensures KeyRun(Insert(front + [last], m), k)
      == KeyRun(front + [last], k) + (if m.Start() == k then [m] else [])
  {
    var ins := Insert(front, m);
    assert (front + [last])[..|front|] == front;
    assert Insert(front + [last], m) == ins + [last];
    KeyRunSnoc(ins, last, k);
    KeyRunSnoc(front, last, k);
  }

  /** The run of `k` in `s + [x]` is the run in `s`, extended by `x` when it starts at `k`. */
  lemma KeyRunSnoc(s: seq<Marker>, x: Marker, k: int)
    ensures KeyRun(s + [x], k) == KeyRun(s, k) + (if x.Start() == k then [x] else [])
  {
    assert (s + [x])[..|s|] == s;
  }

  /** The insertion sort is stable. */
  lemma {:induction false} SortByStartIsStable(s: seq<Marker>)
    ensures IsStableSortOf(SortByStart(s), s)
  {
    if |s| > 0 {
      var front := s[..|s| - 1];
      SortByStartIsStable(front);
      forall k ensures KeyRun(SortByStart(s), k) == KeyRun(s, k) {
        InsertKeyRun(SortByStart(front), s[|s| - 1], k);
      }
    }
  }

  /** In a sorted list every marker starts no later than the last one. */
  lemma LastStartsLatest(s: seq<Marker>, x: Marker)
    requires Sorted(s) && x in s
    ensures x.Start() <= s[|s| - 1].Start()
  {
    var i :| 0 <= i < |s| && s[i] == x;
  }

  /** A marker belongs to the run of its own start. */
  lemma InOwnRun(s: seq<Marker>, x: Marker)
    requires x in s
    ensures x in KeyRun(s, x.Start())
  {
    KeyRunMembers(s, x.Start());
  }

  /** Two sorted lists with the same runs end with markers of the same start. */
  lemma SameRunsSameLastStart(a: seq<Marker>, b: seq<Marker>)
    requires Sorted(a) && Sorted(b) && |a| > 0
    requires forall k :: KeyRun(a, k) == KeyRun(b, k)
    ensures |b| > 0 && a[|a| - 1].Start() == b[|b| - 1].Start()
  {
    var x := a[|a| - 1];
    InOwnRun(a, x);
    KeyRunMembers(b, x.Start());
    LastStartsLatest(b, x);
    var y := b[|b| - 1];
    InOwnRun(b, y);
    KeyRunMembers(a, y.Start());
    LastStartsLatest(a, y);
  }

  /** Two sorted lists with the same runs end with the same marker: the
      last marker of each starts at the largest start of both. */
  lemma SameRunsSameLast(a: seq<Marker>, b: seq<Marker>)
    requires Sorted(a) && Sorted(b) && |a| > 0
    requires forall k :: KeyRun(a, k) == KeyRun(b, k)
    ensures |b| > 0 && a[|a| - 1] == b[|b| - 1]
  {
    SameRunsSameLastStart(a, b);
    LastOfOwnRun(a);
    LastOfOwnRun(b);
    var k := a[|a| - 1].Start();
    assert KeyRun(a, k) == KeyRun(b, k);
  }

  /** The run of the last marker's start ends with that marker. */
  lemma LastOfOwnRun(s: seq<Marker>)
    requires |s| > 0
    ensures var run := KeyRun(s, s[|s| - 1].Start()); |run| > 0 && run[|run| - 1] == s[|s| - 1]
  {
  }

  /** Lists with the same runs are empty together. */
  lemma SameRunsSameEmptiness(a: seq<Marker>, b: seq<Marker>)
    requires forall k :: KeyRun(a, k) == KeyRun(b, k)
    ensures |a| == 0 <==> |b| == 0
  {
    if |b| > 0 {
      var y := b[|b| - 1];
      KeyRunMembers(a, y.Start());
      KeyRunMembers(b, y.Start());
      assert y in KeyRun(a, y.Start());
    }
    if |a| > 0 {
      var x := a[|a| - 1];
      KeyRunMembers(a, x.Start());
      KeyRunMembers(b, x.Start());
      assert x in KeyRun(b, x.Start());
    }
  }

  /** Dropping an equal last marker from both lists keeps their runs equal. */
  lemma SameRunsDropLast(a: seq<Marker>, b: seq<Marker>, x: Marker)
    requires forall k :: KeyRun(a + [x], k) == KeyRun(b + [x], k)
    ensures forall k :: KeyRun(a, k) == KeyRun(b, k)
  {
    forall k ensures KeyRun(a, k) == KeyRun(b, k) {
      KeyRunSnoc(a, x, k);
      KeyRunSnoc(b, x, k);
      var t := if x.Start() == k then [x] else [];
      var ra := KeyRun(a + [x], k);
      assert KeyRun(a, k) == ra[..|ra| - |t|];
      assert KeyRun(b, k) == ra[..|ra| - |t|];
    }
  }

  /** Two sorted lists with the same runs are equal: any stable sort of the
      merged markers yields exactly the order `SortByStart` computes. */
  lemma {:induction false} SameRunsSameList(a: seq<Marker>, b: seq<Marker>)
    requires Sorted(a) && Sorted(b)
    requires forall k :: KeyRun(a, k) == KeyRun(b, k)
    ensures a == b
    decreases |a|
  {
    SameRunsSameEmptiness(a, b);
    if |a| > 0 {
      SameRunsSameLast(a, b);
      var a' := a[..|a| - 1];
      var b' := b[..|b| - 1];
      var x := a[|a| - 1];
      assert a == a' + [x];
      assert b == b' + [x];
      SameRunsDropLast(a', b', x);
      assert Sorted(a') && Sorted(b');
      SameRunsSameList(a', b');
    }
  }

  /** The stable sort of a list is unique. */
  lemma StableSortUnique(r: seq<Marker>, s: seq<Marker>)
    requires IsStableSortOf(r, s)
    ensures r == SortByStart(s)
  {
    SortByStartIsStable(s);
    SameRunsSameList(r, SortByStart(s));
  }

  // ---------------------------------------------------------------------------
  // Segmentation

  /** The plain text between the cursor and a marker, emitted only when the
      cursor is strictly before the marker's start. */
  function Gap(content: string, cursor: int, m: Marker): (r: seq<Segment>)
  {
    if cursor < m.Start() then [Plain(Slice(content, cursor, m.Start()))] else []
  }

  /** The segment of one marker: its slice of the text, tagged with the marker. */
  function MarkerSegment(content: string, m: Marker): (seg: Segment)
  {
    Marked(Slice(content, m.Start(), m.End()), m)
  }

  /** The segments the `forEach` over the sorted markers pushes, starting
      from cursor `cursor`. */
  function Body(content: string, ms: seq<Marker>, cursor: int): (r: seq<Segment>)
  {
    if |ms| == 0 then []
    else Gap(content, cursor, ms[0]) + [MarkerSegment(content, ms[0])] + Body(content, ms[1..], ms[0].End())
  }

  /** `currentIndex` after the `forEach`: the end of the LAST marker, not
      the largest end seen. */
  function CursorAfter(ms: seq<Marker>, cursor: int): (r: int)
    ensures |ms| == 0 ==> r == cursor
    ensures |ms| > 0 ==> r == ms[|ms| - 1].End()
  {
    if |ms| == 0 then cursor else CursorAfter(ms[1..], ms[0].End())
  }

  /** The remaining text after the last marker, emitted only when the cursor
      is strictly before the end of the text. */
  function Trailing(content: string, cursor: int): (r: seq<Segment>)
  {
    if cursor < |content| then [Plain(Slice(content, cursor, |content|))] else []
  }

  /** The plain segments are never empty. */
  predicate NoEmptyPlain(segs: seq<Segment>) {
    forall i :: 0 <= i < |segs| && segs[i].Plain? ==> segs[i].text != ""
  }

  /** The markers of a segment list, in order. */
  function MarkersOf(segs: seq<Segment>): (ms: seq<Marker>)
  {
    if |segs| == 0 then []
    else (if segs[0].Marked? then [segs[0].marker] else []) + MarkersOf(segs[1..])
  }

  /** Every marker lies within the text: `0 <= start <= end <= |content|`. */
  predicate InRange(ms: seq<Marker>, len: nat) {
    forall i :: 0 <= i < |ms| ==> 0 <= ms[i].Start() <= ms[i].End() <= len
  }

  /** Every marked segment carries its marker's own slice of the text. */
  predicate FaithfulMarks(content: string, segs: seq<Segment>) {
    forall i :: 0 <= i < |segs| && segs[i].Marked? ==> segs[i] == MarkerSegment(content, segs[i].marker)
  }

  lemma SegmentsAppend(content: string, a: seq<Segment>, b: seq<Segment>)
    ensures FaithfulMarks(content, a) && FaithfulMarks(content, b) ==> FaithfulMarks(content, a + b)
    ensures NoEmptyPlain(a) && NoEmptyPlain(b) ==> NoEmptyPlain(a + b)
  {
    forall i | |a| <= i < |a + b| ensures (a + b)[i] == b[i - |a|] {}
  }

  /** Every marker of `Body`'s output is one of the input markers, in order,
      with the marker's own slice as its text, and (for in-range markers) no
      plain segment is empty. */
  lemma BodyShape(content: string, ms: seq<Marker>, cursor: int)
    ensures MarkersOf(Body(content, ms, cursor)) == ms
    ensures FaithfulMarks(content, Body(content, ms, cursor))
    ensures InRange(ms, |content|) && 0 <= cursor <= |content| ==> NoEmptyPlain(Body(content, ms, cursor))
  {
    BodyMarkers(content, ms, cursor);
    BodyFaithful(content, ms, cursor);
    if InRange(ms, |content|) && 0 <= cursor <= |content| {
      BodyNoEmptyPlain(content, ms, cursor);
    }
  }

  /** The markers of `Body`'s output are exactly the input markers, in order. */
  lemma {:induction false} BodyMarkers(content: string, ms: seq<Marker>, cursor: int)
    ensures MarkersOf(Body(content, ms, cursor)) == ms
  {
    if |ms| > 0 {
      var gap := Gap(content, cursor, ms[0]);
      var seg := MarkerSegment(content, ms[0]);
      var rest := Body(content, ms[1..], ms[0].End());
      BodyMarkers(content, ms[1..], ms[0].End());
      assert Body(content, ms, cursor) == gap + [seg] + rest;
      MarkersOfAppend(gap + [seg], rest);
      MarkersOfAppend(gap, [seg]);
      assert MarkersOf(gap) == [] by {
        if |gap| > 0 { assert MarkersOf(gap) == MarkersOf(gap[1..]); }
      }
      assert MarkersOf([seg]) == [ms[0]];
      assert ms == [ms[0]] + ms[1..];
    }
  }

  /** Every marked segment of `Body`'s output carries its marker's slice. */
  lemma {:induction false} BodyFaithful(content: string, ms: seq<Marker>, cursor: int)
    ensures FaithfulMarks(content, Body(content, ms, cursor))
  {
    if |ms| > 0 {
      var gap := Gap(content, cursor, ms[0]);
      var seg := MarkerSegment(content, ms[0]);
      var rest := Body(content, ms[1..], ms[0].End());
      BodyFaithful(content, ms[1..], ms[0].End());
      assert Body(content, ms, cursor) == gap + [seg] + rest;
      SegmentsAppend(content, gap, [seg]);
      SegmentsAppend(content, gap + [seg], rest);
    }
  }

  /** For in-range markers, no plain segment of `Body`'s output is empty. */
  lemma {:induction false} BodyNoEmptyPlain(content: string, ms: seq<Marker>, cursor: int)
    requires InRange(ms, |content|) && 0 <= cursor <= |content|
    ensures NoEmptyPlain(Body(content, ms, cursor))
  {
    if |ms| > 0 {
      var gap := Gap(content, cursor, ms[0]);
      var seg := MarkerSegment(content, ms[0]);
      var rest := Body(content, ms[1..], ms[0].End());
      assert InRange(ms[1..], |content|) by {
        forall i | 0 <= i < |ms[1..]| ensures 0 <= ms[1..][i].Start() <= ms[1..][i].End() <= |content| {
          assert ms[1..][i] == ms[i + 1];
        }
      }
      BodyNoEmptyPlain(content, ms[1..], ms[0].End());
      assert Body(content, ms, cursor) == gap + [seg] + rest;
      SegmentsAppend(content, gap, [seg]);
      SegmentsAppend(content, gap + [seg], rest);
    }
  }

  lemma {:induction false} MarkersOfAppend(a: seq<Segment>, b: seq<Segment>)
    ensures MarkersOf(a + b) == MarkersOf(a) + MarkersOf(b)
  {
    if |a| > 0 {
      assert (a + b)[0] == a[0];
      assert (a + b)[1..] == a[1..] + b;
      MarkersOfAppend(a[1..], b);
    } else {
      assert a + b == b;
    }
  }

  /** The segments for a list of markers already in walking order: the
      `forEach` body, then the trailing text after the last marker. */
  function Walk(content: string, ms: seq<Marker>): (r: seq<Segment>)
  {
    Body(content, ms, 0) + Trailing(content, CursorAfter(ms, 0))
  }

  /** The trailing segment is plain, and not empty when the cursor lies in the text. */
  lemma TrailingShape(content: string, cursor: int)
    ensures MarkersOf(Trailing(content, cursor)) == []
    ensures 0 <= cursor ==> NoEmptyPlain(Trailing(content, cursor))
  {
    var tail := Trailing(content, cursor);
    if |tail| > 0 {
      assert MarkersOf(tail) == MarkersOf(tail[1..]);
    }
  }

  /** What `Walk` produces: exactly the given markers, in order, each with
      its own slice; with in-range markers, no empty plain segment. */
  lemma WalkShape(content: string, ms: seq<Marker>)
    ensures MarkersOf(Walk(content, ms)) == ms
    ensures FaithfulMarks(content, Walk(content, ms))
    ensures InRange(ms, |content|) ==> NoEmptyPlain(Walk(content, ms))
  {
    var cursor := CursorAfter(ms, 0);
    var body := Body(content, ms, 0);
    var tail := Trailing(content, cursor);
    BodyShape(content, ms, 0);
    TrailingShape(content, cursor);
    MarkersOfAppend(body, tail);
    SegmentsAppend(content, body, tail);
    assert FaithfulMarks(content, tail);
    assert InRange(ms, |content|) ==> 0 <= cursor by {
      if InRange(ms, |content|) && |ms| > 0 {
        assert 0 <= ms[|ms| - 1].End();
      }
    }
  }

  /** `renderContent`. A message without mentions and links renders as one
      plain segment holding the whole text (even an empty one); otherwise
      the merged, stably sorted markers are walked from offset 0. */
  function Render(content: string, mentions: seq<StoredMention>, links: seq<StoredLink>): (r: seq<Segment>)
    ensures |mentions| == 0 && |links| == 0 ==> r == [Plain(content)]
    ensures MarkersOf(r) == SortByStart(Merge(mentions, links))
    ensures forall i :: 0 <= i < |r| && r[i].Marked? ==>
      r[i].text == Slice(content, r[i].marker.Start(), r[i].marker.End())
    ensures (|mentions| > 0 || |links| > 0) && InRange(Merge(mentions, links), |content|) ==> NoEmptyPlain(r)
  {
    if |mentions| == 0 && |links| == 0 then
      assert MarkersOf([Plain(content)]) == [];
      [Plain(content)]
    else
      var ms := SortByStart(Merge(mentions, links));
      WalkShape(content, ms);
      assert InRange(Merge(mentions, links), |content|) ==> InRange(ms, |content|) by {
        if InRange(Merge(mentions, links), |content|) {
          SortKeepsRange(Merge(mentions, links), |content|);
        }
      }
      Walk(content, ms)
  }

  lemma SortKeepsRange(s: seq<Marker>, len: nat)
    requires InRange(s, len)
    ensures InRange(SortByStart(s), len)
  {
    var r := SortByStart(s);
    forall i | 0 <= i < |r| ensures 0 <= r[i].Start() <= r[i].End() <= len {
      assert r[i] in multiset(s);
      var j :| 0 <= j < |s| && s[j] == r[i];
    }
  }

  lemma SortKeepsProper(s: seq<Marker>, len: nat)
    requires Proper(s, len)
    ensures Proper(SortByStart(s), len)
  {
    var r := SortByStart(s);
    forall i | 0 <= i < |r| ensures 0 <= r[i].Start() < r[i].End() <= len {
      assert r[i] in multiset(s);
      var j :| 0 <= j < |s| && s[j] == r[i];
    }
  }

  // ---------------------------------------------------------------------------
  // Reassembling the text

  /** The segment texts joined in order: what the reader sees. */
  function Concat(segs: seq<Segment>): (text: string)
  {
    if |segs| == 0 then "" else segs[0].text + Concat(segs[1..])
  }

  lemma {:induction false} ConcatAppend(a: seq<Segment>, b: seq<Segment>)
    ensures Concat(a + b) == Concat(a) + Concat(b)
  {
    if |a| == 0 {
      assert a + b == b;
    } else {
      assert (a + b)[0] == a[0];
      assert (a + b)[1..] == a[1..] + b;
      ConcatAppend(a[1..], b);
    }
  }

  lemma SliceJoin(s: string, a: int, b: int, c: int)
    requires 0 <= a <= b <= c <= |s|
    ensures s[a..b] + s[b..c] == s[a..c]
  {
  }

  lemma ConcatSingle(seg: Segment)
    ensures Concat([seg]) == seg.text
  {
    assert Concat([seg]) == seg.text + Concat([]);
  }

  /** The gap before a marker holds the text from the cursor to the marker's start. */
  lemma GapText(content: string, cursor: int, m: Marker)
    requires 0 <= cursor <= m.Start() <= |content|
    ensures Concat(Gap(content, cursor, m)) == content[cursor..m.Start()]
  {
    var gap := Gap(content, cursor, m);
    if |gap| > 0 { ConcatSingle(gap[0]); }
  }

  /** A marker's segment holds the marker's slice of the text. */
  lemma SegmentText(content: string, m: Marker)
    requires 0 <= m.Start() <= m.End() <= |content|
    ensures Concat([MarkerSegment(content, m)]) == content[m.Start()..m.End()]
  {
    ConcatSingle(MarkerSegment(content, m));
  }

  /** The trailing segment holds the rest of the text after the cursor. */
  lemma TrailingText(content: string, cursor: int)
    requires 0 <= cursor <= |content|
    ensures Concat(Trailing(content, cursor)) == content[cursor..]
  {
    var tail := Trailing(content, cursor);
    if |tail| > 0 { ConcatSingle(tail[0]); }
  }

  /** Each marker starts at or after the end of the one before it (or the
      starting cursor) and lies within the text. */
  predicate Chained(ms: seq<Marker>, cursor: int, len: nat) {
    |ms| == 0 || (
      && cursor <= ms[0].Start() <= ms[0].End() <= len
      && Chained(ms[1..], ms[0].End(), len))
  }

  /** For chained markers the `forEach` emits exactly the text from the
      cursor up to the last marker's end. */
  lemma {:induction false} BodyRoundTrip(content: string, ms: seq<Marker>, cursor: int)
    requires 0 <= cursor <= |content|
    requires Chained(ms, cursor, |content|)
    ensures cursor <= CursorAfter(ms, cursor) <= |content|
    ensures Concat(Body(content, ms, cursor)) == content[cursor..CursorAfter(ms, cursor)]
  {
    if |ms| > 0 {
      var m := ms[0];
      var gap := Gap(content, cursor, m);
      var seg := MarkerSegment(content, m);
      var rest := Body(content, ms[1..], m.End());
      BodyRoundTrip(content, ms[1..], m.End());
      var after := CursorAfter(ms, cursor);
      assert after == CursorAfter(ms[1..], m.End());
      ConcatAppend(gap + [seg], rest);
      ConcatAppend(gap, [seg]);
      GapText(content, cursor, m);
      SegmentText(content, m);
      SliceJoin(content, cursor, m.Start(), m.End());
      SliceJoin(content, cursor, m.End(), after);
    }
  }

  /** For chained markers the walk gives back the whole text. */
  lemma WalkRoundTrip(content: string, ms: seq<Marker>)
    requires Chained(ms, 0, |content|)
    ensures Concat(Walk(content, ms)) == content
  {
    var cursor := CursorAfter(ms, 0);
    BodyRoundTrip(content, ms, 0);
    var tail := Trailing(content, cursor);
    ConcatAppend(Body(content, ms, 0), tail);
    TrailingText(content, cursor);
    assert content == content[..cursor] + content[cursor..];
  }

  /** Two spans do not overlap. */
  predicate Disjoint(a: Marker, b: Marker) {
    a.End() <= b.Start() || b.End() <= a.Start()
  }

  predicate PairwiseDisjoint(ms: seq<Marker>) {
    forall i, j :: 0 <= i < j < |ms| ==> Disjoint(ms[i], ms[j])
  }

  /** Every span is non-empty and lies within the text: `0 <= start < end <= len`. */
  predicate Proper(ms: seq<Marker>, len: nat) {
    forall i :: 0 <= i < |ms| ==> 0 <= ms[i].Start() < ms[i].End() <= len
  }

  lemma DisjointAppend(xs: seq<Marker>, m: Marker)
    requires PairwiseDisjoint(xs)
    requires forall i :: 0 <= i < |xs| ==> Disjoint(xs[i], m)
    ensures PairwiseDisjoint(xs + [m])
  {
    var r := xs + [m];
    forall i, j | 0 <= i < j < |r| ensures Disjoint(r[i], r[j]) {
      assert r[i] == xs[i];
    }
  }

  lemma {:induction false} InsertKeepsDisjoint(xs: seq<Marker>, m: Marker)
    requires PairwiseDisjoint(xs)
    requires forall x :: x in xs ==> Disjoint(x, m)
    ensures PairwiseDisjoint(Insert(xs, m))
  {
    if |xs| == 0 {
    } else {
      var last := xs[|xs| - 1];
      if last.Start() <= m.Start() {
        forall i | 0 <= i < |xs| ensures Disjoint(xs[i], m) {
          assert xs[i] in xs;
        }
        DisjointAppend(xs, m);
      } else {
        var front := xs[..|xs| - 1];
        assert PairwiseDisjoint(front);
        InsertKeepsDisjoint(front, m);
        var ins := Insert(front, m);
        assert Insert(xs, m) == ins + [last];
        forall i | 0 <= i < |ins| ensures Disjoint(ins[i], last) {
          assert ins[i] in multiset(ins);
          if ins[i] == m {
            assert last in xs;
          } else {
            assert ins[i] in multiset(front);
            var j :| 0 <= j < |front| && front[j] == ins[i];
            assert Disjoint(xs[j], xs[|xs| - 1]);
          }
        }
        DisjointAppend(ins, last);
      }
    }
  }

  lemma {:induction false} SortKeepsDisjoint(s: seq<Marker>)
    requires PairwiseDisjoint(s)
    ensures PairwiseDisjoint(SortByStart(s))
  {
    if |s| > 0 {
      var front := s[..|s| - 1];
      var m := s[|s| - 1];
      assert PairwiseDisjoint(front);
      SortKeepsDisjoint(front);
      var sorted := SortByStart(front);
      forall x | x in sorted ensures Disjoint(x, m) {
        assert x in multiset(front);
        var j :| 0 <= j < |front| && front[j] == x;
        assert s[j] == x;
      }
      InsertKeepsDisjoint(sorted, m);
    }
  }

  /** Sorted, non-empty, pairwise disjoint spans within the text form a chain. */
  lemma {:induction false} SortedDisjointChained(ms: seq<Marker>, cursor: int, len: nat)
    requires Sorted(ms) && PairwiseDisjoint(ms) && Proper(ms, len)
    requires |ms| > 0 ==> cursor <= ms[0].Start()
    ensures Chained(ms, cursor, len)
  {
    if |ms| > 1 {
      assert Disjoint(ms[0], ms[1]);
      assert ms[0].Start() <= ms[1].Start();
      assert ms[1..][0] == ms[1];
      SortedDisjointChained(ms[1..], ms[0].End(), len);
    } else if |ms| == 1 {
      assert Chained(ms[1..], ms[0].End(), len);
    }
  }

  /** The rendering round trip: when every mention and link is a non-empty
      span within the text and no two of them overlap, the segment texts
      joined in order are the message text. */
  lemma RenderRoundTrip(content: string, mentions: seq<StoredMention>, links: seq<StoredLink>)
    requires Proper(Merge(mentions, links), |content|)
    requires PairwiseDisjoint(Merge(mentions, links))
    ensures Concat(Render(content, mentions, links)) == content
  {
    if |mentions| == 0 && |links| == 0 {
      assert Concat([Plain(content)]) == content + Concat([]);
    } else {
      var ms := SortByStart(Merge(mentions, links));
      SortKeepsProper(Merge(mentions, links), |content|);
      SortKeepsDisjoint(Merge(mentions, links));
      SortedDisjointChained(ms, 0, |content|);
      WalkRoundTrip(content, ms);
    }
  }

  /** With at least one marker, rendering walks the stably sorted merge. */
  lemma RenderIsWalk(content: string, mentions: seq<StoredMention>, links: seq<StoredLink>)
    requires |mentions| > 0 || |links| > 0
    ensures Render(content, mentions, links) == Walk(content, SortByStart(Merge(mentions, links)))
  {
  }

  /** Two markers already in start order stay as they are. */
  lemma SortTwo(a: Marker, b: Marker)
    requires a.Start() <= b.Start()
    ensures SortByStart([a, b]) == [a, b]
  {
    assert [a, b][..1] == [a];
    assert SortByStart([a]) == [a] by { assert [a][..0] == []; }
  }

  /** Walking two markers where the second starts no later than the first ends. */
  lemma WalkTwo(content: string, a: Marker, b: Marker)
    requires b.Start() <= a.End()
    ensures Walk(content, [a, b])
      == Gap(content, 0, a) + [MarkerSegment(content, a)] + [MarkerSegment(content, b)] + Trailing(content, b.End())
  {
    assert Body(content, [b], a.End()) == [MarkerSegment(content, b)] by {
      assert Gap(content, a.End(), b) == [];
      assert [b][1..] == [];
    }
    assert [a, b][1..] == [b];
  }

  lemma ConcatFour(a: seq<Segment>, b: seq<Segment>, c: seq<Segment>, d: seq<Segment>)
    ensures Concat(a + b + c + d) == Concat(a) + Concat(b) + Concat(c) + Concat(d)
  {
    ConcatAppend(a + b + c, d);
    ConcatAppend(a + b, c);
    ConcatAppend(a, b);
  }

  lemma JoinTwoSpans(s: string, i: int, j: int, k: int, l: int)
    requires 0 <= i <= j <= |s| && 0 <= k <= l <= |s|
    ensures s[0..i] + s[i..j] + s[k..l] + s[l..] == s[..j] + s[k..]
  {
    assert s[0..i] + s[i..j] == s[..j];
    assert s[k..l] + s[l..] == s[k..];
    var front := s[0..i] + s[i..j];
    assert front + s[k..l] + s[l..] == front + (s[k..l] + s[l..]);
  }

  /** The text of two markers walked in order, the second starting inside
      the first or right at its end. */
  lemma WalkTwoText(content: string, a: Marker, b: Marker)
    requires 0 <= a.Start() <= b.Start() <= a.End() <= |content|
    requires b.Start() <= b.End() <= |content|
    ensures Concat(Walk(content, [a, b])) == content[..a.End()] + content[b.Start()..]
  {
    var gap := Gap(content, 0, a);
    var first := [MarkerSegment(content, a)];
    var second := [MarkerSegment(content, b)];
    var tail := Trailing(content, b.End());
    WalkTwo(content, a, b);
    ConcatFour(gap, first, second, tail);
    GapText(content, 0, a);
    SegmentText(content, a);
    SegmentText(content, b);
    TrailingText(content, b.End());
    JoinTwoSpans(content, a.Start(), a.End(), b.Start(), b.End());
  }

  /** One mention followed by one link that starts inside it (or right at
      its end): the text is shown up to the mention's end and again from the
      link's start, so an overlap is repeated, whether the link ends after
      the mention, inside it, or is empty. */
  lemma MentionThenLink(content: string, m: StoredMention, l: StoredLink)
    requires 0 <= m.startIndex <= l.startIndex <= m.endIndex <= |content|
    requires l.startIndex <= l.endIndex <= |content|
    ensures Concat(Render(content, [m], [l])) == content[..m.endIndex] + content[l.startIndex..]
  {
    assert Merge([m], [l]) == [MentionMarker(m), LinkMarker(l)];
    SortTwo(MentionMarker(m), LinkMarker(l));
    RenderIsWalk(content, [m], [l]);
    WalkTwoText(content, MentionMarker(m), LinkMarker(l));
  }

  /** Overlapping spans: the shared text appears twice. */
  lemma OverlapRepeatsText(content: string, m: StoredMention, l: StoredLink)
    requires 0 <= m.startIndex <= l.startIndex < m.endIndex <= |content|
    requires l.startIndex <= l.endIndex <= |content|
    ensures |Concat(Render(content, [m], [l]))| == |content| + (m.endIndex - l.startIndex)
    ensures Concat(Render(content, [m], [l])) != content
  {
    MentionThenLink(content, m, l);
  }

  /** Non-emptiness is needed for the round trip: an empty link at the start
      of a mention overlaps nothing, yet the cursor jumps back to it and the
      mention's text is shown twice. */
  lemma EmptySpanBreaksRoundTrip(content: string, m: StoredMention, l: StoredLink)
    requires 0 <= m.startIndex < m.endIndex <= |content|
    requires l.startIndex == l.endIndex == m.startIndex
    ensures PairwiseDisjoint(Merge([m], [l]))
    ensures InRange(Merge([m], [l]), |content|)
    ensures Concat(Render(content, [m], [l])) != content
  {
    var ms := Merge([m], [l]);
    assert ms == [MentionMarker(m), LinkMarker(l)];
    TwoMarkersWellPlaced(MentionMarker(m), LinkMarker(l), |content|);
    MentionThenLink(content, m, l);
    ShownTwiceDiffers(content, m.endIndex, l.startIndex);
  }

  /** Showing the text up to `i` and again from `j < i` lengthens it. */
  lemma ShownTwiceDiffers(content: string, i: int, j: int)
    requires 0 <= j < i <= |content|
    ensures content[..i] + content[j..] != content
  {
    assert |content[..i] + content[j..]| == |content| + (i - j);
  }

  /** Two disjoint markers within the text form a disjoint, in-range list. */
  lemma TwoMarkersWellPlaced(a: Marker, b: Marker, len: nat)
    requires Disjoint(a, b)
    requires 0 <= a.Start() <= a.End() <= len && 0 <= b.Start() <= b.End() <= len
    ensures PairwiseDisjoint([a, b])
    ensures InRange([a, b], len)
  {
  }

  /** One step of the `forEach`: the body from marker `i` on is that marker's
      gap and segment followed by the body from marker `i + 1` on, and the
      final cursor is unchanged by taking the step. */
  lemma {:induction false} BodyStep(content: string, ms: seq<Marker>, i: nat, cursor: int, done: seq<Segment>)
    requires i < |ms|
    ensures done + Body(content, ms[i..], cursor)
      == done + Gap(content, cursor, ms[i]) + [MarkerSegment(content, ms[i])] + Body(content, ms[i + 1..], ms[i].End())
    ensures CursorAfter(ms[i..], cursor) == CursorAfter(ms[i + 1..], ms[i].End())
  {
    assert ms[i..][1..] == ms[i + 1..];
    var gap := Gap(content, cursor, ms[i]);
    var seg := [MarkerSegment(content, ms[i])];
    var rest := Body(content, ms[i + 1..], ms[i].End());
    assert done + (gap + seg + rest) == done + gap + seg + rest;
  }

  /** The `forEach` of `renderContent` as written, followed by the trailing
      text: walks markers already in order, pushing segments and moving
      `currentIndex`. */
  method WalkMarkers(content: string, markers: seq<Marker>) returns (segments: seq<Segment>)
    ensures segments == Walk(content, markers)
  {
    ghost var body := Body(content, markers, 0);
    assert markers[0..] == markers;
    segments := [];
    var currentIndex := 0;
    var i := 0;
    while i < |markers|
      invariant 0 <= i <= |markers|
      invariant segments + Body(content, markers[i..], currentIndex) == body
      invariant CursorAfter(markers[i..], currentIndex) == CursorAfter(markers, 0)
    {
      var marker := markers[i];
      BodyStep(content, markers, i, currentIndex, segments);
      ghost var before := segments;
      ghost var gap := Gap(content, currentIndex, marker);
      if currentIndex < marker.Start() {
        segments := segments + [Plain(Slice(content, currentIndex, marker.Start()))];
        assert segments == before + gap;
      } else {
        assert segments == before + gap;
      }
      segments := segments + [Marked(Slice(content, marker.Start(), marker.End()), marker)];
      assert segments == before + gap + [MarkerSegment(content, marker)];
      currentIndex := marker.End();
      i := i + 1;
    }
    assert markers[i..] == [];
    assert segments == body;
    assert currentIndex == CursorAfter(markers, 0);
    if currentIndex < |content| {
      segments := segments + [Plain(Slice(content, currentIndex, |content|))];
    }
    assert segments == body + Trailing(content, currentIndex);
  }

  /** `renderContent` as written: the early return for a message without
      mentions and links, the merge and stable sort, then the walk. */
  method RenderContent(content: string, mentions: seq<StoredMention>, links: seq<StoredLink>)
    returns (segments: seq<Segment>)
    ensures segments == Render(content, mentions, links)
  {
    if |mentions| == 0 && |links| == 0 {
      return [Plain(content)];
    }
    var markers := SortByStart(Merge(mentions, links));
    RenderIsWalk(content, mentions, links);
    segments := WalkMarkers(content, markers);
  }
}

=== FILE: seqs.dfy ===
/** Sequence helpers shared by the model: JavaScript's `Array.prototype.filter`
    and the duplicate-freedom invariant of the tag lists. */
module Seqs {

  /** `s.filter(keep)`: the elements of `s` that satisfy `keep`, in their original order. */
  function Filter<T>(s: seq<T>, keep: T -> bool): (r: seq<T>)
    ensures |r| <= |s|
    ensures forall i :: 0 <= i < |r| ==> r[i] in s && keep(r[i])
    ensures forall i :: 0 <= i < |s| && keep(s[i]) ==> s[i] in r
  {
    if |s| == 0 then []
    else (if keep(s[0]) then [s[0]] else []) + Filter(s[1..], keep)
  }

  /** Filtering distributes over concatenation, so relative order is kept. */
  lemma {:induction false} FilterAppend<T>(a: seq<T>, b: seq<T>, keep: T -> bool)
    ensures Filter(a + b, keep) == Filter(a, keep) + Filter(b, keep)
  {
    if |a| == 0 {
      assert a + b == b;
    } else {
      assert (a + b)[1..] == a[1..] + b;
      FilterAppend(a[1..], b, keep);
    }
  }

  /** A filter that rejects nothing returns its input. */
  lemma {:induction false} FilterKeepsAll<T>(s: seq<T>, keep: T -> bool)
    requires forall i :: 0 <= i < |s| ==> keep(s[i])
    ensures Filter(s, keep) == s
  {
    if |s| > 0 {
      FilterKeepsAll(s[1..], keep);
    }
  }

  /** Slicing a suffix is slicing the whole sequence further along. */
  lemma SuffixSlices<T>(s: seq<T>, i: nat, n: nat)
    requires i + n <= |s|
    ensures s[i..][..n] == s[i..i + n] && s[i..][n..] == s[i + n..]
  {
  }

  predicate NoDuplicates<T(==)>(s: seq<T>) {
    forall i, j :: 0 <= i < j < |s| ==> s[i] != s[j]
  }

  /** Filtering never introduces a duplicate. */
  lemma {:induction false} FilterNoDuplicates<T>(s: seq<T>, keep: T -> bool)
    requires NoDuplicates(s)
    ensures NoDuplicates(Filter(s, keep))
  {
    if |s| > 0 {
      FilterNoDuplicates(s[1..], keep);
      var rest := Filter(s[1..], keep);
      assert s[0] !in s[1..];
      assert s[0] !in rest;
    }
  }

  /** Appending an element that is not present keeps a sequence duplicate-free. */
  lemma AppendFreshNoDuplicates<T>(s: seq<T>, x: T)
    requires NoDuplicates(s) && x !in s
    ensures NoDuplicates(s + [x])
  {
  }
}

=== FILE: smartentry.dfy ===
/** What the four smart-entry forms (to-do, note, question, medication)
    have in common besides the tag editor: the priority scale, the
    placeholder owner ids every entry is created with, and JavaScript's
    truthiness test on an optional string field. */
module SmartEntry {
  import opened Wrappers

  /** The priority buttons. */
  datatype Priority = Low | Medium | High | Urgent

  /** A point in time, in milliseconds; `new Date()` is passed in as one. */
  type Time = int

  /** The hard-coded user and child ids the forms create entries for. */
  const PlaceholderUserId: string := "current-user-id"
  const PlaceholderChildId: string := "current-child-id"

  /** The `createdVia` marker the forms put in an entry's data. */
  const CreatedVia: string := "smart-entry"

  /** `!!x` for an optional string: present and not empty. */
  predicate Truthy(x: Option<string>) {
    x.Some? && x.value != ""
  }

  /** What reaches the database when a save awaits its calls one after
      another inside one `try`: the calls `sent`, in order, and whether the
      save ends in its success alert (`ok`) rather than in the `catch`. */
  datatype Outcome<T> = Outcome(sent: seq<T>, ok: bool)

  /** Awaiting the planned calls in order. `accepted[i]` says whether the
      database accepts the `i`-th call once it is sent. A rejected call
      throws, so no later call is sent and the save fails. */
  function Await<T>(plan: seq<T>, accepted: seq<bool>): (r: Outcome<T>)
    requires |accepted| == |plan|
    ensures r.sent <= plan
    ensures r.ok <==> forall i :: 0 <= i < |accepted| ==> accepted[i]
    ensures r.ok ==> r.sent == plan
    ensures forall i :: 0 <= i < |r.sent| - 1 ==> accepted[i]
    ensures !r.ok ==> 0 < |r.sent| && !accepted[|r.sent| - 1]
    decreases |plan|
  {
    if |plan| == 0 then Outcome([], true)
    else if !accepted[0] then Outcome([plan[0]], false)
    else
      var rest := Await(plan[1..], accepted[1..]);
      Outcome([plan[0]] + rest.sent, rest.ok)
  }

  /** The first rejected call is the last one sent: everything before it
      reaches the database and nothing after it does. */
  lemma AwaitStopsAtFirstRejection<T>(plan: seq<T>, accepted: seq<bool>, k: nat)
    requires |accepted| == |plan| && k < |plan| && !accepted[k]
    requires forall i :: 0 <= i < k ==> accepted[i]
    ensures Await(plan, accepted) == Outcome(plan[..k + 1], false)
  {
    var r := Await(plan, accepted);
    assert !r.ok;
  }
}

=== FILE: storage.dfy ===
/** The decision logic of the image storage helpers: the generated file
    name, the pre-upload validation of an image's HEAD response, the
    storage path of an upload and the thumbnail rule of its result. The
    clock, the random source, `fetch` and the storage bucket are not
    modelled; their outputs are parameters. */
module Storage {
  import opened Wrappers
  import opened Text

  // ---------------------------------------------------------------------------
  // Splitting on one character

  /** `s.split(sep)` for a one-character separator: the pieces between
      separators, empty pieces included, so there is always at least one. */
  function Split(s: string, sep: char): (r: seq<string>)
    ensures |r| >= 1
    ensures forall i :: 0 <= i < |r| ==> sep !in r[i]
  {
    if |s| == 0 then [""]
    else if s[0] == sep then [""] + Split(s[1..], sep)
    else
      var rest := Split(s[1..], sep);
      [[s[0]] + rest[0]] + rest[1..]
  }

  /** `pieces.join(sep)`. */
  function Join(pieces: seq<string>, sep: char): (s: string)
    requires |pieces| >= 1
  {
    if |pieces| == 1 then pieces[0] else pieces[0] + [sep] + Join(pieces[1..], sep)
  }

  /** A string without the separator splits into itself. */
  lemma {:induction false} SplitNoSep(s: string, sep: char)
    requires sep !in s
    ensures Split(s, sep) == [s]
  {
    if |s| > 0 {
      SplitNoSep(s[1..], sep);
      assert [s[0]] + s[1..] == s;
    }
  }

  /** Splitting at a separator splits the two sides independently. */
  lemma {:induction false} SplitAtSep(a: string, b: string, sep: char)
    ensures Split(a + [sep] + b, sep) == Split(a, sep) + Split(b, sep)
  {
    if |a| == 0 {
      assert a + [sep] + b == [sep] + b;
      assert ([sep] + b)[1..] == b;
    } else {
      assert (a + [sep] + b)[0] == a[0];
      assert (a + [sep] + b)[1..] == a[1..] + [sep] + b;
      SplitAtSep(a[1..], b, sep);
    }
  }

  /** Joining the pieces of a split gives back the string. */
  lemma {:induction false} JoinSplit(s: string, sep: char)
    ensures Join(Split(s, sep), sep) == s
  {
    if |s| > 0 {
      JoinSplit(s[1..], sep);
      var rest := Split(s[1..], sep);
      if s[0] != sep {
        var r := Split(s, sep);
        assert r[0] == [s[0]] + rest[0];
        if |rest| > 1 {
          assert r[1..] == rest[1..];
          assert Join(r, sep) == [s[0]] + (rest[0] + [sep] + Join(rest[1..], sep));
        }
      } else {
        assert Split(s, sep)[1..] == rest;
      }
    }
  }

  /** Splitting a join of separator-free pieces gives back the pieces. */
  lemma {:induction false} SplitJoin(pieces: seq<string>, sep: char)
    requires |pieces| >= 1
    requires forall i :: 0 <= i < |pieces| ==> sep !in pieces[i]
    ensures Split(Join(pieces, sep), sep) == pieces
  {
    if |pieces| == 1 {
      SplitNoSep(pieces[0], sep);
    } else {
      SplitJoin(pieces[1..], sep);
      SplitAtSep(pieces[0], Join(pieces[1..], sep), sep);
      SplitNoSep(pieces[0], sep);
    }
  }

  // ---------------------------------------------------------------------------
  // The generated file name

  /** `originalName.split('.').pop() || 'jpg'`: the text after the last dot
      (the whole name when it has no dot), or `jpg` when that is empty. */
  function Extension(originalName: string): (e: string)
    ensures e != "" && '.' !in e
    ensures '.' !in originalName && originalName != "" ==> e == originalName
    ensures originalName == "" ==> e == "jpg"
  {
    var pieces := Split(originalName, '.');
    var last := pieces[|pieces| - 1];
    assert '.' !in originalName ==> pieces == [originalName] by {
      if '.' !in originalName { SplitNoSep(originalName, '.'); }
    }
    if last == "" then "jpg" else last
  }

  /** The extension is what follows the last dot, whatever comes before it. */
  lemma ExtensionAfterLastDot(base: string, ext: string)
    requires '.' !in ext
    ensures Extension(base + "." + ext) == if ext == "" then "jpg" else ext
  {
    SplitAtSep(base, ext, '.');
    SplitNoSep(ext, '.');
  }

  /** The decimal digit for `d`. */
  function DigitChar(d: nat): (c: char)
    requires d < 10
  {
    "0123456789"[d]
  }

  predicate IsDigit(c: char) {
    '0' <= c <= '9'
  }

  function DigitValue(c: char): (d: nat)
    requires IsDigit(c)
  {
    c as int - '0' as int
  }

  predicate AllDigits(s: string) {
    forall i :: 0 <= i < |s| ==> IsDigit(s[i])
  }

  /** The number a string of decimal digits denotes. */
  function DigitsValue(s: string): (n: nat)
    requires AllDigits(s)
  {
    if |s| == 0 then 0 else DigitsValue(s[..|s| - 1]) * 10 + DigitValue(s[|s| - 1])
  }

  /** `n.toString()` for a non-negative integer: decimal, no leading zeros. */
  function NatToString(n: nat): (s: string)
    ensures |s| >= 1 && AllDigits(s)
    ensures DigitsValue(s) == n
    ensures s[0] == '0' ==> n == 0
  {
    if n < 10 then [DigitChar(n)]
    else
      var front := NatToString(n / 10);
      var s := front + [DigitChar(n % 10)];
      assert s[..|s| - 1] == front;
      s
  }

  /** `generateFileName`: `${timestamp}_${randomString}.${extension}`. The
      timestamp and the random string are parameters. */
  function GenerateFileName(timestamp: nat, randomString: string, originalName: string): (r: string)
    ensures var t := NatToString(timestamp);
      |t| < |r| && r[..|t|] == t && r[|t|] == '_'
    ensures var e := Extension(originalName);
      |e| < |r| && r[|r| - |e| - 1..] == "." + e
    ensures var t := NatToString(timestamp); var e := Extension(originalName);
      |t| + 1 <= |r| - |e| - 1 && r[|t| + 1..|r| - |e| - 1] == randomString
  {
    var t := NatToString(timestamp);
    var e := Extension(originalName);
    NamePieces(t, randomString, e);
    t + "_" + randomString + "." + e
  }

  /** Where the pieces of `${t}_${u}.${e}` sit. */
  lemma NamePieces(t: string, u: string, e: string)
    ensures var r := t + "_" + u + "." + e;
      && |t| < |r| && r[..|t|] == t && r[|t|] == '_'
      && |e| < |r| && r[|r| - |e| - 1..] == "." + e
      && |t| + 1 <= |r| - |e| - 1 && r[|t| + 1..|r| - |e| - 1] == u
  {
  }

  /** A generated name keeps the original's extension: taking the extension
      of the generated name gives the same answer as of the original. */
  lemma GeneratedNameKeepsExtension(timestamp: nat, randomString: string, originalName: string)
    ensures Extension(GenerateFileName(timestamp, randomString, originalName)) == Extension(originalName)
  {
    var base := NatToString(timestamp) + "_" + randomString;
    assert GenerateFileName(timestamp, randomString, originalName) == base + "." + Extension(originalName);
    ExtensionAfterLastDot(base, Extension(originalName));
  }

  /** The generated name starts with the timestamp: reading it back with
      `parseInt` (which stops at the underscore) gives the timestamp. */
  lemma GeneratedNameStartsWithTimestamp(timestamp: nat, randomString: string, originalName: string)
    ensures ParseInt(GenerateFileName(timestamp, randomString, originalName)) == Some(timestamp)
  {
    var digits := NatToString(timestamp);
    var rest := "_" + randomString + "." + Extension(originalName);
    assert GenerateFileName(timestamp, randomString, originalName) == digits + rest;
    ParseIntOfDecimal(timestamp, rest);
  }

  // ---------------------------------------------------------------------------
  // parseInt

  /** The longest prefix of `s` made of decimal digits. */
  function DigitPrefix(s: string): (d: string)
    ensures |d| <= |s| && d == s[..|d|] && AllDigits(d)
    ensures |d| < |s| ==> !IsDigit(s[|d|])
  {
    if |s| > 0 && IsDigit(s[0]) then [s[0]] + DigitPrefix(s[1..]) else ""
  }

  /** `parseInt(s, 10)`: skip leading whitespace, read an optional sign and
      the longest run of digits; `None` stands for `NaN` (no digits). */
  function ParseInt(s: string): (r: Option<int>)
    ensures r.None? <==> |DigitPrefix(Unsigned(TrimStart(s)))| == 0
  {
    ParseTrimmed(TrimStart(s))
  }

  /** `parseInt` after the leading whitespace is gone: an optional sign,
      then the longest run of digits. */
  function ParseTrimmed(t: string): (r: Option<int>)
    ensures r.None? <==> |DigitPrefix(Unsigned(t))| == 0
  {
    var digits := DigitPrefix(Unsigned(t));
    var magnitude: int := if |digits| == 0 then 0 else DigitsValue(digits);
    if |digits| == 0 then None
    else if |t| > 0 && t[0] == '-' then Some(-magnitude)
    else Some(magnitude)
  }

  /** The text after an optional leading sign. */
  function Unsigned(t: string): (u: string)
    ensures |t| > 0 && (t[0] == '-' || t[0] == '+') ==> u == t[1..]
    ensures |t| == 0 || (t[0] != '-' && t[0] != '+') ==> u == t
  {
    if |t| > 0 && (t[0] == '-' || t[0] == '+') then t[1..] else t
  }

  /** The digits of a number followed by a non-digit (or nothing) read back as the number. */
  lemma ParseIntOfDecimal(n: nat, rest: string)
    requires |rest| == 0 || !IsDigit(rest[0])
    ensures ParseInt(NatToString(n) + rest) == Some(n)
  {
    var d := NatToString(n);
    var s := d + rest;
    assert s[0] == d[0] && IsDigit(s[0]);
    StartsWithNonSpace(s);
    DigitPrefixOfDigits(d, rest);
    ReadUnsigned(s, d);
  }

  /** Text that starts with a digit reads as the value of its digit run. */
  lemma ReadUnsigned(t: string, d: string)
    requires |t| > 0 && IsDigit(t[0])
    requires AllDigits(d) && |d| > 0 && DigitPrefix(t) == d
    ensures ParseTrimmed(t) == Some(DigitsValue(d) as int)
  {
    assert Unsigned(t) == t;
  }

  /** Leading whitespace is skipped and a sign applies to the digits after it. */
  lemma ParseIntSigned(w: string, n: nat, rest: string)
    requires AllWhitespace(w)
    requires |rest| == 0 || !IsDigit(rest[0])
    ensures ParseInt(w + "-" + NatToString(n) + rest) == Some(-(n as int))
    ensures ParseInt(w + "+" + NatToString(n) + rest) == Some(n)
  {
    var d := NatToString(n);
    var minus := ['-'] + (d + rest);
    var plus := ['+'] + (d + rest);
    assert w + "-" + d + rest == w + minus;
    assert w + "+" + d + rest == w + plus;
    TrimStartSkips(w, minus);
    TrimStartSkips(w, plus);
    SignedDigits('-', d, rest);
    SignedDigits('+', d, rest);
  }

  /** A sign followed by a digit run reads as the signed value of the digits. */
  lemma SignedDigits(sign: char, d: string, rest: string)
    requires sign == '-' || sign == '+'
    requires AllDigits(d) && |d| > 0 && (|rest| == 0 || !IsDigit(rest[0]))
    ensures sign == '-' ==> ParseTrimmed([sign] + (d + rest)) == Some(-(DigitsValue(d) as int))
    ensures sign == '+' ==> ParseTrimmed([sign] + (d + rest)) == Some(DigitsValue(d) as int)
  {
    var t := [sign] + (d + rest);
    assert t[0] == sign && t[1..] == d + rest;
    DigitPrefixOfDigits(d, rest);
    ReadSigned(t, d);
  }

  lemma ReadSigned(t: string, d: string)
    requires |t| > 0 && (t[0] == '-' || t[0] == '+')
    requires AllDigits(d) && |d| > 0 && DigitPrefix(t[1..]) == d
    ensures ParseTrimmed(t) == Some(if t[0] == '-' then -(DigitsValue(d) as int) else DigitsValue(d) as int)
  {
    assert Unsigned(t) == t[1..];
  }

  /** Trimming whitespace in front of a non-whitespace character leaves what follows. */
  lemma {:induction false} TrimStartSkips(w: string, u: string)
    requires AllWhitespace(w) && |u| > 0 && !IsWhitespace(u[0])
    ensures TrimStart(w + u) == u
  {
    if |w| > 0 {
      assert (w + u)[0] == w[0];
      assert (w + u)[1..] == w[1..] + u;
      TrimStartSkips(w[1..], u);
    } else {
      assert w + u == u;
    }
  }

  lemma StartsWithNonSpace(s: string)
    requires |s| > 0 && IsDigit(s[0])
    ensures TrimStart(s) == s
  {
    assert !IsWhitespace(s[0]);
  }

  lemma {:induction false} DigitPrefixOfDigits(d: string, rest: string)
    requires AllDigits(d)
    requires |rest| == 0 || !IsDigit(rest[0])
    ensures DigitPrefix(d + rest) == d
  {
    if |d| > 0 {
      assert (d + rest)[1..] == d[1..] + rest;
      DigitPrefixOfDigits(d[1..], rest);
      assert [d[0]] + d[1..] == d;
    } else {
      assert d + rest == rest;
    }
  }

  // ---------------------------------------------------------------------------
  // validateImage

  /** The headers of the HEAD response that `validateImage` reads. */
  datatype Head = Head(contentType: Option<string>, contentLength: Option<string>)

  /** `{ isValid, error }`. */
  datatype Validation = Validation(isValid: bool, error: Option<string>)

  /** 10 MiB. */
  const MaxImageSize: int := 10 * 1024 * 1024

  const NotAnImage: string := "File must be an image"
  const TooLarge: string := "Image must be smaller than 10MB"
  const Unreachable: string := "Unable to validate image"

  /** `contentType?.startsWith('image/')`. */
  predicate IsImageType(contentType: Option<string>) {
    contentType.Some? && StartsWith(contentType.value, "image/")
  }

  /** `contentLength ? parseInt(contentLength, 10) : 0`; `None` is `NaN`. */
  function ImageSize(contentLength: Option<string>): (r: Option<int>)
    ensures contentLength.None? || contentLength.value == "" ==> r == Some(0)
  {
    if contentLength.Some? && contentLength.value != "" then ParseInt(contentLength.value) else Some(0)
  }

  /** `size > maxSize`; a `NaN` size compares false. */
  predicate OverLimit(size: Option<int>) {
    size.Some? && size.value > MaxImageSize
  }

  /** `validateImage`, given the HEAD response or `None` when the request
      failed: the type check comes before the size check. */
  function ValidateImage(head: Option<Head>): (r: Validation)
    ensures r.isValid <==> r.error.None?
    ensures r.isValid <==> head.Some? && IsImageType(head.value.contentType) && !OverLimit(ImageSize(head.value.contentLength))
    ensures head.None? ==> r.error == Some(Unreachable)
    ensures head.Some? && !IsImageType(head.value.contentType) ==> r.error == Some(NotAnImage)
    ensures head.Some? && IsImageType(head.value.contentType) && OverLimit(ImageSize(head.value.contentLength)) ==>
      r.error == Some(TooLarge)
  {
    match head
    case None => Validation(false, Some(Unreachable))
    case Some(h) =>
      if !IsImageType(h.contentType) then Validation(false, Some(NotAnImage))
      else if OverLimit(ImageSize(h.contentLength)) then Validation(false, Some(TooLarge))
      else Validation(true, None)
  }

  /** For an image whose length header is a decimal number, the validation
      passes exactly when the size is at most 10 MiB (so exactly 10 MiB passes). */
  lemma SizeLimitInclusive(contentType: string, size: nat)
    requires StartsWith(contentType, "image/")
    ensures ValidateImage(Some(Head(Some(contentType), Some(NatToString(size))))).isValid <==> size <= MaxImageSize
  {
    ParseIntOfDecimal(size, "");
    assert NatToString(size) + "" == NatToString(size);
  }

  /** The type is checked first: a non-image is reported as such whatever its size. */
  lemma TypeCheckedFirst(contentType: Option<string>, contentLength: Option<string>)
    requires !IsImageType(contentType)
    ensures ValidateImage(Some(Head(contentType, contentLength))) == Validation(false, Some(NotAnImage))
  {
  }

  /** A length header that is not a number (`NaN`) never fails the size check. */
  lemma NotANumberPasses(contentType: string, contentLength: string)
    requires StartsWith(contentType, "image/")
    requires contentLength != "" && ParseInt(contentLength).None?
    ensures ValidateImage(Some(Head(Some(contentType), Some(contentLength)))).isValid
  {
  }

  // ---------------------------------------------------------------------------
  // uploadImage

  /** `messages/${childId}/${messageId}/${fileName}`. */
  function StoragePath(childId: string, messageId: string, fileName: string): (p: string)
    ensures |p| == |childId| + |messageId| + |fileName| + 11
    ensures StartsWith(p, "messages/") && p[|p| - |fileName|..] == fileName
    ensures p[|p| - |fileName| - 1] == '/'
  {
    "messages" + "/" + (childId + "/" + (messageId + "/" + fileName))
  }

  /** A leading separator-free piece is split off whole. */
  lemma SplitFirst(a: string, b: string, sep: char)
    requires sep !in a
    ensures Split(a + [sep] + b, sep) == [a] + Split(b, sep)
  {
    SplitAtSep(a, b, sep);
    SplitNoSep(a, sep);
  }

  /** The path splits back into its parts when the ids contain no slash. */
  lemma StoragePathParts(childId: string, messageId: string, fileName: string)
    requires '/' !in childId && '/' !in messageId
    ensures Split(StoragePath(childId, messageId, fileName), '/')
      == ["messages", childId, messageId] + Split(fileName, '/')
  {
    var tail := messageId + "/" + fileName;
    var mid := childId + "/" + tail;
    SplitFirst("messages", mid, '/');
    SplitFirst(childId, tail, '/');
    SplitFirst(messageId, fileName, '/');
  }

  /** What `uploadImage` returns. */
  datatype UploadResult = UploadResult(
    url: string, fileName: string, size: int, mimeType: string, thumbnailUrl: Option<string>)

  /** The result built from the download URL and the uploaded blob: an
      image gets its own URL as thumbnail, anything else gets none. */
  function UploadResultOf(downloadUrl: string, fileName: string, blobSize: int, blobType: string): (r: UploadResult)
    ensures r.url == downloadUrl && r.fileName == fileName && r.size == blobSize && r.mimeType == blobType
    ensures r.thumbnailUrl.Some? <==> StartsWith(blobType, "image/")
    ensures r.thumbnailUrl.Some? ==> r.thumbnailUrl.value == r.url
  {
    UploadResult(downloadUrl, fileName, blobSize, blobType,
      if StartsWith(blobType, "image/") then Some(downloadUrl) else None)
  }
}

=== FILE: taglist.dfy ===
/** The tag editor shared by the four smart-entry forms (to-do, note,
    question, medication): a duplicate-free list of tags, a free-text
    "new tag" input, and a preset list offered as suggestions. The four
    forms' handlers are character-for-character the same, so they are
    modelled once here. */
module TagList {
  import opened Text
  import opened Seqs

  /** The part of a form's state the tag handlers touch. */
  datatype TagEditor = TagEditor(tags: seq<string>, newTag: string)

  /** `handleAddTag`: append the trimmed input when it is non-blank and not
      already a tag, then clear the input; otherwise change nothing. */
  function AddTag(e: TagEditor): (r: TagEditor)
    ensures r.tags != e.tags <==> !IsBlank(e.newTag) && Trim(e.newTag) !in e.tags
    ensures r.tags != e.tags ==> r.tags == e.tags + [Trim(e.newTag)] && r.newTag == ""
    ensures r.tags == e.tags ==> r == e
    ensures NoDuplicates(e.tags) ==> NoDuplicates(r.tags)
  {
    var t := Trim(e.newTag);
    if t != "" && t !in e.tags then
      assert e.tags + [t] != e.tags by { assert |e.tags + [t]| != |e.tags|; }
      TagEditor(e.tags + [t], "")
    else e
  }

  /** `handleRemoveTag`: drop every tag equal to `tag`. */
  function RemoveTag(tags: seq<string>, tag: string): (r: seq<string>)
    ensures forall t :: t in r <==> t in tags && t != tag
    ensures tag !in tags ==> r == tags
    ensures NoDuplicates(tags) ==> NoDuplicates(r)
  {
    var r := Filter(tags, t => t != tag);
    assert tag !in tags ==> r == tags by {
      if tag !in tags { FilterKeepsAll(tags, t => t != tag); }
    }
    assert NoDuplicates(tags) ==> NoDuplicates(r) by {
      if NoDuplicates(tags) { FilterNoDuplicates(tags, t => t != tag); }
    }
    r
  }

  /** `handleAddExistingTag`: append a suggested tag unless it is already chosen. */
  function AddExistingTag(tags: seq<string>, tag: string): (r: seq<string>)
    ensures tag in r
    ensures forall t :: t in r <==> t in tags || t == tag
    ensures tag in tags ==> r == tags
    ensures tag !in tags ==> |r| == |tags| + 1 && r[..|tags|] == tags
    ensures NoDuplicates(tags) ==> NoDuplicates(r)
  {
    if tag in tags then tags else tags + [tag]
  }

  /** The "Existing Tags" row: preset tags not yet chosen, in preset order. */
  function Suggestions(preset: seq<string>, tags: seq<string>): (r: seq<string>)
    ensures forall t :: t in r <==> t in preset && t !in tags
    ensures NoDuplicates(preset) ==> NoDuplicates(r)
  {
    var r := Filter(preset, t => t !in tags);
    assert NoDuplicates(preset) ==> NoDuplicates(r) by {
      if NoDuplicates(preset) { FilterNoDuplicates(preset, t => t !in tags); }
    }
    r
  }

  /** Removing a tag that was just added from the suggestions restores the list. */
  lemma RemoveUndoesAddExisting(tags: seq<string>, tag: string)
    requires tag !in tags
    ensures RemoveTag(AddExistingTag(tags, tag), tag) == tags
  {
    var keep := (t: string) => t != tag;
    FilterAppend(tags, [tag], keep);
    FilterKeepsAll(tags, keep);
  }

  /** Removing a tag keeps the remaining tags in their original order:
      the result splits exactly where the input does. */
  lemma RemoveTagSplits(a: seq<string>, b: seq<string>, tag: string)
    ensures RemoveTag(a + b, tag) == RemoveTag(a, tag) + RemoveTag(b, tag)
  {
    FilterAppend(a, b, t => t != tag);
  }

  /** Picking a suggestion moves it from the suggestion row into the tags. */
  lemma PickSuggestion(preset: seq<string>, tags: seq<string>, tag: string)
    requires tag in Suggestions(preset, tags)
    ensures tag in AddExistingTag(tags, tag)
    ensures tag !in Suggestions(preset, AddExistingTag(tags, tag))
    ensures |AddExistingTag(tags, tag)| == |tags| + 1
  {
  }

  /** What the user can do with the tag editor: type into the input, press
      the add button, tap a chosen tag to remove it, or tap a suggestion. */
  datatype TagAction = Edit(text: string) | AddTyped | Remove(tag: string) | AddSuggested(tag: string)

  /** One tag action applied to the editor. */
  function Apply(e: TagEditor, a: TagAction): (r: TagEditor)
    ensures NoDuplicates(e.tags) ==> NoDuplicates(r.tags)
    ensures a.Edit? ==> r.tags == e.tags
    ensures a.Remove? || a.AddSuggested? ==> r.newTag == e.newTag
    ensures forall t :: t in r.tags ==> t in e.tags || (a.AddTyped? && t == Trim(e.newTag)) || (a.AddSuggested? && t == a.tag)
  {
    match a
    case Edit(text) => TagEditor(e.tags, text)
    case AddTyped => AddTag(e)
    case Remove(tag) => TagEditor(RemoveTag(e.tags, tag), e.newTag)
    case AddSuggested(tag) => TagEditor(AddExistingTag(e.tags, tag), e.newTag)
  }

  /** A session of tag actions, applied in order. */
  function ApplyAll(e: TagEditor, actions: seq<TagAction>): (r: TagEditor)
    ensures NoDuplicates(e.tags) ==> NoDuplicates(r.tags)
    decreases |actions|
  {
    if |actions| == 0 then e else ApplyAll(Apply(e, actions[0]), actions[1..])
  }
}

=== FILE: text.dfy ===
/** The JavaScript string primitives the app relies on, over `seq<char>`:
    `trim`, `slice`, `startsWith`, `toLowerCase` and the regular-expression
    class `\s`. Whitespace is the exact ECMAScript set (WhiteSpace plus
    LineTerminator); lower-casing is restricted to ASCII letters. */
module Text {
  import opened Seqs

  /** ECMAScript whitespace: TAB, VT, FF, SP, NBSP, ZWNBSP, the other `Zs`
      space separators, and the line terminators LF, CR, LS, PS. This is the
      set `String.prototype.trim` removes and `\s` matches. */
  predicate IsWhitespace(c: char) {
    || c == '\t' || c == '\n' || c == '\r' || c == ' '
    || c == '\U{000B}' || c == '\U{000C}'
    || c == '\U{00A0}' || c == '\U{1680}'
    || ('\U{2000}' <= c <= '\U{200A}')
    || c == '\U{2028}' || c == '\U{2029}'
    || c == '\U{202F}' || c == '\U{205F}' || c == '\U{3000}'
    || c == '\U{FEFF}'
  }

  predicate AllWhitespace(s: string) {
    forall i :: 0 <= i < |s| ==> IsWhitespace(s[i])
  }

  predicate NoWhitespace(s: string) {
    forall i :: 0 <= i < |s| ==> !IsWhitespace(s[i])
  }

  /** `s` with its leading whitespace removed. */
  function TrimStart(s: string): (r: string)
    ensures |r| <= |s| && r == s[|s| - |r|..]
    ensures forall i :: 0 <= i < |s| - |r| ==> IsWhitespace(s[i])
    ensures |r| == 0 || !IsWhitespace(r[0])
  {
    if |s| > 0 && IsWhitespace(s[0]) then TrimStart(s[1..]) else s
  }

  /** `s` with its trailing whitespace removed. */
  function TrimEnd(s: string): (r: string)
    ensures |r| <= |s| && r == s[..|r|]
    ensures forall i :: |r| <= i < |s| ==> IsWhitespace(s[i])
    ensures |r| == 0 || !IsWhitespace(r[|r| - 1])
  {
    if |s| > 0 && IsWhitespace(s[|s| - 1]) then TrimEnd(s[..|s| - 1]) else s
  }

  /** `String.prototype.trim`. */
  function Trim(s: string): (r: string)
    ensures |r| <= |s|
    ensures r == "" <==> AllWhitespace(s)
    ensures |r| == 0 || (!IsWhitespace(r[0]) && !IsWhitespace(r[|r| - 1]))
  {
    var t := TrimStart(s);
    var r := TrimEnd(t);
    assert r == "" ==> AllWhitespace(s) by {
      if r == "" {
        assert |t| == 0;
      }
    }
    r
  }

  /** Trimming only cuts whitespace off the two ends: the result is a
      contiguous piece of the input, and everything before and after it is
      whitespace. */
  lemma TrimCutsOnlyWhitespace(s: string)
    ensures exists i :: (0 <= i && i + |Trim(s)| <= |s| && Trim(s) == s[i..i + |Trim(s)|]
      && AllWhitespace(s[..i]) && AllWhitespace(s[i + |Trim(s)|..]))
  {
    var t := TrimStart(s);
    TrimPieces(s, t, TrimEnd(t));
  }

  /** Cutting whitespace off the front (`t`) and then off the back (`r`)
      leaves a contiguous piece of the input with whitespace on both sides. */
  lemma TrimPieces(s: string, t: string, r: string)
    requires |t| <= |s| && t == s[|s| - |t|..] && forall j :: 0 <= j < |s| - |t| ==> IsWhitespace(s[j])
    requires |r| <= |t| && r == t[..|r|] && forall j :: |r| <= j < |t| ==> IsWhitespace(t[j])
    ensures exists i :: (0 <= i && i + |r| <= |s| && r == s[i..i + |r|]
      && AllWhitespace(s[..i]) && AllWhitespace(s[i + |r|..]))
  {
    var i := |s| - |t|;
    SuffixSlices(s, i, |r|);
    var before := s[..i];
    forall k | 0 <= k < |before|
      ensures IsWhitespace(before[k])
    {
      assert before[k] == s[k];
    }
    var after := s[i + |r|..];
    forall k | 0 <= k < |after|
      ensures IsWhitespace(after[k])
    {
      assert after[k] == t[|r| + k];
    }
  }

  /** The JavaScript truthiness test `!s.trim()`: nothing but whitespace. */
  predicate IsBlank(s: string) {
    Trim(s) == ""
  }

  /** Trimming a string that does not start or end with whitespace leaves it alone. */
  lemma TrimOfTrimmed(s: string)
    requires |s| == 0 || (!IsWhitespace(s[0]) && !IsWhitespace(s[|s| - 1]))
    ensures Trim(s) == s
  {
    assert TrimStart(s) == s;
  }

  /** Trimming is idempotent. */
  lemma TrimIdempotent(s: string)
    ensures Trim(Trim(s)) == Trim(s)
  {
    TrimOfTrimmed(Trim(s));
  }

  /** How `String.prototype.slice` resolves one index against a string of
      length `len`: negative indices count back from the end, and the result
      is clamped into `[0, len]`. */
  function ClampIndex(i: int, len: nat): (r: nat)
    ensures r <= len
    ensures 0 <= i <= len ==> r == i
    ensures i < 0 && len as int + i >= 0 ==> r as int == len as int + i
  {
    if i < 0 then (if len + i < 0 then 0 else len + i)
    else if i > len then len
    else i
  }

  /** `s.slice(start, end)`, including negative indices and clamping. */
  function Slice(s: string, start: int, end: int): (r: string)
    ensures |r| <= |s|
    ensures 0 <= start <= end <= |s| ==> r == s[start..end]
    ensures 0 <= end <= start ==> r == ""
    ensures -|s| <= start < 0 && end == |s| ==> r == s[|s| + start..]
  {
    var from := ClampIndex(start, |s|);
    var to := ClampIndex(end, |s|);
    if from < to then s[from..to] else ""
  }

  /** `s.startsWith(prefix)`. */
  predicate StartsWith(s: string, prefix: string) {
    |prefix| <= |s| && s[..|prefix|] == prefix
  }

  predicate IsUpperAscii(c: char) {
    'A' <= c <= 'Z'
  }

  predicate NoUpperAscii(s: string) {
    forall i :: 0 <= i < |s| ==> !IsUpperAscii(s[i])
  }

  /** Lower-cases an ASCII capital letter and leaves every other character alone. */
  function LowerChar(c: char): (r: char)
    ensures !IsUpperAscii(r)
    ensures !IsUpperAscii(c) ==> r == c
    ensures IsWhitespace(r) <==> IsWhitespace(c)
  {
    if IsUpperAscii(c) then (c as int + 32) as char else c
  }

  /** `s.toLowerCase()`, restricted to ASCII letters. */
  function ToLower(s: string): (r: string)
    ensures |r| == |s|
    ensures forall i :: 0 <= i < |s| ==> r[i] == LowerChar(s[i])
    ensures NoUpperAscii(r)
  {
    if |s| == 0 then "" else [LowerChar(s[0])] + ToLower(s[1..])
  }

  /** Lower-casing changes nothing in a string without capitals. */
  lemma ToLowerOfLower(s: string)
    requires NoUpperAscii(s)
    ensures ToLower(s) == s
  {
  }

  /** `s.replace(/\s+/g, '-')`: every maximal run of whitespace becomes one
      hyphen. `inRun` says whether the character before `s` was whitespace
      (so a leading run has already been replaced). */
  function CollapseWhitespace(s: string, inRun: bool): (r: string)
    ensures NoWhitespace(r)
    ensures forall i :: 0 <= i < |r| ==> r[i] == '-' || r[i] in s
  {
    if |s| == 0 then ""
    else if IsWhitespace(s[0]) then
      (if inRun then "" else "-") + CollapseWhitespace(s[1..], true)
    else
      [s[0]] + CollapseWhitespace(s[1..], false)
  }

  /** A string without whitespace passes through the run replacement unchanged. */
  lemma {:induction false} CollapseOfNoWhitespace(s: string, inRun: bool)
    requires NoWhitespace(s)
    ensures CollapseWhitespace(s, inRun) == s
  {
    if |s| > 0 {
      CollapseOfNoWhitespace(s[1..], false);
    }
  }

  /** A whitespace run consumed from inside the run leaves nothing behind:
      what follows the run is collapsed as if no run had preceded it. */
  lemma {:induction false} CollapseSkipsRun(w: string, b: string)
    requires AllWhitespace(w)
    requires |b| == 0 || !IsWhitespace(b[0])
    ensures CollapseWhitespace(w + b, true) == CollapseWhitespace(b, false)
  {
    if |w| > 0 {
      assert (w + b)[1..] == w[1..] + b;
      CollapseSkipsRun(w[1..], b);
    } else {
      assert w + b == b;
    }
  }

  /** A maximal whitespace run becomes exactly one hyphen: the word before it
      is kept as it is and the rest is collapsed on its own. */
  lemma {:induction false} CollapseRun(a: string, w: string, b: string)
    requires NoWhitespace(a) && |w| > 0 && AllWhitespace(w)
    requires |b| == 0 || !IsWhitespace(b[0])
    ensures CollapseWhitespace(a + w + b, false) == a + "-" + CollapseWhitespace(b, false)
  {
    if |a| == 0 {
      assert a + w + b == w + b;
      assert (w + b)[1..] == w[1..] + b;
      CollapseSkipsRun(w[1..], b);
    } else {
      assert (a + w + b)[1..] == a[1..] + w + b;
      CollapseRun(a[1..], w, b);
    }
  }

  /** A character that is neither whitespace nor a hyphen. */
  predicate Visible(c: char) {
    !IsWhitespace(c) && c != '-'
  }

  /** Collapsing keeps every character other than whitespace and hyphens,
      in its original order. */
  lemma {:induction false} CollapseKeepsVisible(s: string, inRun: bool)
    ensures Filter(CollapseWhitespace(s, inRun), Visible) == Filter(s, Visible)
  {
    if |s| > 0 {
      var head := if IsWhitespace(s[0]) then (if inRun then "" else "-") else [s[0]];
      var rest := CollapseWhitespace(s[1..], IsWhitespace(s[0]));
      assert CollapseWhitespace(s, inRun) == head + rest;
      FilterAppend(head, rest, Visible);
      CollapseKeepsVisible(s[1..], IsWhitespace(s[0]));
      assert Filter(head, Visible) == (if Visible(s[0]) then [s[0]] else []);
    }
  }

  /** The specialty tag: `s.toLowerCase().replace(/\s+/g, '-')`. */
  function Slug(s: string): (r: string)
    ensures NoWhitespace(r)
    ensures NoUpperAscii(r)
  {
    CollapseWhitespace(ToLower(s), false)
  }

  /** Slugging a slug changes nothing. */
  lemma SlugIdempotent(s: string)
    ensures Slug(Slug(s)) == Slug(s)
  {
    var t := Slug(s);
    ToLowerOfLower(t);
    CollapseOfNoWhitespace(t, false);
  }

  /** Lower-casing works character by character, so it distributes over concatenation. */
  lemma {:induction false} ToLowerAppend(a: string, b: string)
    ensures ToLower(a + b) == ToLower(a) + ToLower(b)
  {
    if |a| == 0 {
      assert a + b == b;
    } else {
      assert (a + b)[1..] == a[1..] + b;
      ToLowerAppend(a[1..], b);
    }
  }

  /** A single word is lower-cased and otherwise kept. */
  lemma SlugOfWord(s: string)
    requires NoWhitespace(s)
    ensures Slug(s) == ToLower(s)
  {
    CollapseOfNoWhitespace(ToLower(s), false);
  }

  /** Each whitespace run of the specialty becomes one hyphen between the
      lower-cased words around it. */
  lemma SlugRun(a: string, w: string, b: string)
    requires NoWhitespace(a) && |w| > 0 && AllWhitespace(w)
    requires |b| == 0 || !IsWhitespace(b[0])
    ensures Slug(a + w + b) == ToLower(a) + "-" + Slug(b)
  {
    ToLowerAppend(a + w, b);
    ToLowerAppend(a, w);
    ToLowerOfLower(w);
    assert ToLower(a + w + b) == ToLower(a) + w + ToLower(b);
    CollapseRun(ToLower(a), w, ToLower(b));
  }
}

=== FILE: todo.dfy ===
/** The to-do form: title, description, priority, tags and an optional
    recurrence. Saving creates an entry and, for a recurring to-do whose
    repeat interval has been chosen, a reminder. */
module TodoForm {
  import opened Wrappers
  import opened Text
  import opened Seqs
  import opened TagList
  import opened SmartEntry

  /** The "Repeat every" choices. */
  datatype Recurrence = Daily | Weekly | Monthly

  /** The form's data. No control of the screen sets `assignedToId` or
      `dueDate`, so they keep their initial (absent) values, but they are
      passed through to the requests. */
  datatype Todo = Todo(
    title: string, description: string, priority: Priority, tags: seq<string>,
    assignedToId: Option<string>, dueDate: Option<Time>,
    isRecurring: bool, recurringType: Option<Recurrence>)

  /** The form data plus the tag input. */
  datatype Screen = Screen(form: Todo, newTag: string)

  /** A blank form: medium priority, no tags, not recurring. */
  function Initial(): (s: Screen)
    ensures s.form.tags == [] && s.newTag == ""
    ensures !s.form.isRecurring && s.form.recurringType == None
  {
    Screen(Todo("", "", Medium, [], None, None, false, None), "")
  }

  /** The controls of the screen. */
  datatype Action =
    | SetTitle(title: string)
    | SetDescription(description: string)
    | SetPriority(priority: Priority)
    | Tags(tagAction: TagAction)
    | ToggleRecurring
    | SetRecurrence(recurrence: Recurrence)

  /** One control applied to the screen state. */
  function Step(s: Screen, a: Action): (r: Screen)
    ensures NoDuplicates(s.form.tags) ==> NoDuplicates(r.form.tags)
    ensures !a.Tags? ==> r.form.tags == s.form.tags && r.newTag == s.newTag
    ensures a.Tags? ==> r.form == s.form.(tags := r.form.tags)
    ensures a.ToggleRecurring? ==> r.form.isRecurring != s.form.isRecurring
    ensures !a.ToggleRecurring? ==> r.form.isRecurring == s.form.isRecurring
    ensures a.SetTitle? ==> r == Screen(s.form.(title := a.title), s.newTag)
    ensures a.SetDescription? ==> r == Screen(s.form.(description := a.description), s.newTag)
    ensures a.SetPriority? ==> r == Screen(s.form.(priority := a.priority), s.newTag)
    ensures a.ToggleRecurring? ==> r.form == s.form.(isRecurring := r.form.isRecurring)
    ensures a.SetRecurrence? ==> r == Screen(s.form.(recurringType := Some(a.recurrence)), s.newTag)
  {
    var f := s.form;
    match a
    case SetTitle(t) => Screen(f.(title := t), s.newTag)
    case SetDescription(d) => Screen(f.(description := d), s.newTag)
    case SetPriority(p) => Screen(f.(priority := p), s.newTag)
    case Tags(ta) =>
      var e := TagList.Apply(TagEditor(f.tags, s.newTag), ta);
      Screen(f.(tags := e.tags), e.newTag)
    case ToggleRecurring => Screen(f.(isRecurring := !f.isRecurring), s.newTag)
    case SetRecurrence(rt) => Screen(f.(recurringType := Some(rt)), s.newTag)
  }

  /** A session of controls, applied in order. Each form has its own
      `Run`, the same fold over that form's own `Step`. */
  function Run(s: Screen, actions: seq<Action>): (r: Screen)
    ensures NoDuplicates(s.form.tags) ==> NoDuplicates(r.form.tags)
    decreases |actions|
  {
    if |actions| == 0 then s else Run(Step(s, actions[0]), actions[1..])
  }

  /** The entry `createEntry` is called with. */
  datatype Entry = Entry(
    title: string, description: string, priority: Priority, tags: seq<string>,
    dueDate: Option<Time>, userId: string, childId: string, assignedToId: Option<string>,
    isRecurring: bool, recurringType: Option<Recurrence>)

  /** The reminder `createReminder` is called with. */
  datatype Reminder = Reminder(
    title: string, description: string, kind: string, frequency: Recurrence,
    resetOnCompletion: bool, nextDueAt: Option<Time>, assignedTo: Option<string>, childId: string)

  /** What a save sends to the database, in order: the entry, then the reminder if any. */
  datatype Requests = Requests(entry: Entry, reminder: Option<Reminder>)

  /** The only validation failure: "Please enter a title". */
  datatype TodoError = MissingTitle

  /** Whether a save creates a reminder. */
  predicate MakesReminder(f: Todo) {
    f.isRecurring && f.recurringType.Some?
  }

  /** `handleSave` up to the database calls: reject a blank title, otherwise
      build the entry (with the title as typed, not trimmed) and, for a
      recurring to-do with a chosen interval, a task reminder that resets
      on completion. */
  function Save(f: Todo): (r: Result<Requests, TodoError>)
    ensures r.Failure? <==> IsBlank(f.title)
    ensures r.Success? ==> r.value.entry.title == f.title && r.value.entry.tags == f.tags
    ensures r.Success? ==> r.value.entry.userId == PlaceholderUserId && r.value.entry.childId == PlaceholderChildId
    ensures r.Success? ==> (r.value.reminder.Some? <==> MakesReminder(f))
    ensures r.Success? && r.value.reminder.Some? ==>
      var rem := r.value.reminder.value;
      && r.value.entry.recurringType == Some(rem.frequency)
      && rem.resetOnCompletion && rem.kind == "task"
      && rem.title == r.value.entry.title && rem.description == r.value.entry.description
      && rem.nextDueAt == r.value.entry.dueDate && rem.assignedTo == r.value.entry.assignedToId
    ensures r.Success? && r.value.reminder.Some? ==>
      Some(r.value.reminder.value.frequency) == f.recurringType && r.value.reminder.value.childId == PlaceholderChildId
    ensures r.Success? ==> var e := r.value.entry;
      && e.description == f.description && e.priority == f.priority && e.dueDate == f.dueDate
      && e.assignedToId == f.assignedToId && e.isRecurring == f.isRecurring && e.recurringType == f.recurringType
  {
    if IsBlank(f.title) then Failure(MissingTitle)
    else
      var entry := Entry(
        f.title, f.description, f.priority, f.tags, f.dueDate,
        PlaceholderUserId, PlaceholderChildId, f.assignedToId,
        f.isRecurring, f.recurringType);
      var reminder :=
        if f.isRecurring && f.recurringType.Some? then
          Some(Reminder(f.title, f.description, "task", f.recurringType.value, true,
                        f.dueDate, f.assignedToId, PlaceholderChildId))
        else None;
      Success(Requests(entry, reminder))
  }

  /** A database call of the to-do save. */
  datatype Call = CreateEntry(entry: Entry) | CreateReminder(reminder: Reminder)

  /** The calls a planned save awaits, in order: the entry, then the reminder if any. */
  function Calls(q: Requests): (c: seq<Call>)
    ensures 1 <= |c| <= 2 && c[0] == CreateEntry(q.entry)
    ensures |c| == 2 <==> q.reminder.Some?
    ensures |c| == 2 ==> c[1] == CreateReminder(q.reminder.value)
  {
    [CreateEntry(q.entry)] + (if q.reminder.Some? then [CreateReminder(q.reminder.value)] else [])
  }

  /** `handleSave` with its database calls: `entryStored` and
      `reminderStored` say whether `createEntry` and `createReminder` would
      succeed. The reminder is requested only after the entry was stored,
      and the save succeeds only when every call it sends does. */
  function Submit(f: Todo, entryStored: bool, reminderStored: bool): (r: Result<Outcome<Call>, TodoError>)
    ensures r.Failure? <==> IsBlank(f.title)
    ensures r.Success? ==> 1 <= |r.value.sent| <= 2 && r.value.sent[0] == CreateEntry(Save(f).value.entry)
    ensures r.Success? ==> (|r.value.sent| == 2 <==> entryStored && MakesReminder(f))
    ensures r.Success? && |r.value.sent| == 2 ==> r.value.sent[1] == CreateReminder(Save(f).value.reminder.value)
    ensures r.Success? ==> (r.value.ok <==> entryStored && (MakesReminder(f) ==> reminderStored))
  {
    match Save(f)
    case Failure(e) => Failure(e)
    case Success(q) =>
      var plan := Calls(q);
      var accepted := [entryStored, reminderStored][..|plan|];
      assert accepted[0] == entryStored && (|plan| == 2 ==> accepted[1] == reminderStored);
      Success(Await(plan, accepted))
  }

  /** A rejected entry stops the save: the reminder of a recurring to-do is
      never requested. */
  lemma FailedEntrySendsNoReminder(f: Todo, reminderStored: bool)
    requires !IsBlank(f.title) && MakesReminder(f)
    ensures Submit(f, false, reminderStored) == Success(Outcome([CreateEntry(Save(f).value.entry)], false))
  {
    var plan := Calls(Save(f).value);
    AwaitStopsAtFirstRejection(plan, [false, reminderStored][..|plan|], 0);
  }

  /** Switching recurrence off suppresses the reminder but remembers the
      chosen interval, so switching it back on brings the reminder back. */
  lemma ToggleRecurringTwice(s: Screen)
    requires s.form.isRecurring && s.form.recurringType.Some? && !IsBlank(s.form.title)
    ensures Save(Step(s, ToggleRecurring).form).Success?
    ensures Save(Step(s, ToggleRecurring).form).value.reminder == None
    ensures Step(Step(s, ToggleRecurring), ToggleRecurring) == s
    ensures Save(Step(Step(s, ToggleRecurring), ToggleRecurring).form) == Save(s.form)
  {
    var t := Step(s, ToggleRecurring);
    assert t == Screen(s.form.(isRecurring := false), s.newTag);
    assert t.form.title == s.form.title;
    assert Step(t, ToggleRecurring) == s;
  }

  /** The tag actions touch nothing a save reads except the tags. */
  lemma TagsOnlyChangeTags(s: Screen, ta: TagAction)
    requires !IsBlank(s.form.title)
    ensures var t := Step(s, Tags(ta));
      Save(t.form).Success? && Save(t.form).value.reminder == Save(s.form).value.reminder
      && Save(t.form).value.entry == Save(s.form).value.entry.(tags := t.form.tags)
  {
    var t := Step(s, Tags(ta));
    assert t.form == s.form.(tags := t.form.tags);
    assert t.form.title == s.form.title;
  }
}

=== FILE: wrappers.dfy ===
/** Optional values: the model's stand-in for a JavaScript value that may be `undefined`. */
module Wrappers {

  datatype Option<+T> = None | Some(value: T) {

    /** The wrapped value, or `default` when there is none (JavaScript's `x ?? default`). */
    function GetOr(default: T): T {
      match this
      case Some(v) => v
      case None => default
    }
  }

  /** Either a value or the error that stopped the computation. */
  datatype Result<+R, +E> = Success(value: R) | Failure(error: E)
}
